=== FILE: README.md ===
# ChoiceHub menu voting, modelled in Dafny

ChoiceHub lets an event creator publish a menu (sheets, each holding
categories with a selection quota and a list of items), name the people
allowed to vote, and collect one ballot per voter per sheet. The results
page ranks the items of every category by votes and highlights the winners,
flagging a tie that the quota cannot settle.

This project models the decision-making core of that system as pure Dafny
functions over immutable data, and proves what each piece promises:

- `Strings` — `trim`, `toLowerCase` and string ordering as the code uses them.
- `Schema` — events, menus (sheet → categories → items), votes and the vote store.
- `Votes` — `POST /api/vote` (guards and the per-voter upsert) and
  `GET /api/votes/:eventId/:name`.
- `Tally` — `GET /api/results/:eventId`: the count and voter list of every item.
- `Voters` — adding and removing names on an event's voter list.
- `Lifecycle` — opening/closing voting, deleting an event, clearing its votes,
  and the admin page's toggle button.
- `MenuFold` — how `POST /api/upload-menu/:eventId` folds spreadsheet rows into
  categories, with a row-by-row reference reading it is proved equal to.
- `Ranking` — the results card: ranking, winner threshold, tie detection, and
  the finalists summary of a closed event.
- `Ballot` — the voting form: `enforceQuota` and the submit handler's checks.
- `Admin` — the creator's event filter and the manual menu builder.

Every server route is a function from the stored state and the request to a
`Step(outcome, state)`, where the outcome is `Ok`, `BadRequest`, `NotFound` or
`Forbidden`. A request that is refused leaves the state as it was. Fields that
are absent from a request are modelled as the empty string, since both are
falsy in the code. JavaScript object key order is insertion order, so a menu is
a sequence of sheets rather than a map.

Some behaviour of the code is worth stating plainly, because the model keeps it:

- `server.js` checks no quota. `POST /api/vote` accepts any non-empty
  selections object (server.js:303) and never looks at the items inside it.
  Only the voting form enforces the limits, and it reports just the last
  offending category. `Ballot` models the form; `Votes.SubmitVote` has no
  quota guard.
- A voter whose name is whitespace-only passes the `!name` check of
  `POST /api/events/:eventId/voters` and is stored as the empty name.
  `Voters.AddVoter` does the same.
- An item cell that trims to empty is still added as an empty item, and a
  whitespace-only category cell clears the current category, so the item
  rows after it are dropped. `MenuFold` does both.

## Model

| member | source | states |
|---|---|---|
| Votes.SubmitVote | server.js:300-346 | Guards apply in the route's order. Missing parameters give 400, an unknown event 404, closed voting 403, an unknown sheet 400, and a name not on the list (case-insensitive, trimmed) 403. The request is accepted exactly when all guards pass. A refusal changes nothing. Success changes only the one (event, sheet) vote list, which gets the voter's new vote |
| Votes.UpsertKeepsVotersUnique | server.js:331-342 | Storing a vote keeps "at most one vote per voter (case-insensitive) per sheet" |
| Votes.UpsertLeavesOneVote | server.js:331-342 | After a submission, every vote in the sheet that matches the voter is the new vote, and it carries the trimmed name and the selections as sent |
| Votes.UpsertLastWriteWins | server.js:331-342 | The meaning of `Votes.Upsert`, the `findIndex`-then-overwrite-or-push step: a second vote by the same voter in any letter case leaves the list as if the first had never been cast |
| Votes.ResubmissionOverwrites | server.js:300-346 | The same holds at the level of the whole store for two accepted requests. A resubmission is an overwrite, never an append or an error |
| Votes.VoterSelections | server.js:387-404 | The lookup holds a sheet exactly when some vote there matches the name case-insensitively. It returns that sheet's first matching vote's selections. No event check is made |
| Votes.SubmitThenLookup | server.js:300-404 | Round trip: after an accepted vote, looking the voter up in any letter case returns exactly the selections just submitted for that sheet |
| Tally.TallySheet | server.js:362-377 | An item has a tally entry exactly when it was picked at least once. Its count is the number of its picks, and its voter list has one voter name per pick, in storage order |
| Tally.GetResults | server.js:348-385 | An unknown event gives 404, and a missing or unknown sheet gives 400. Otherwise it returns the stored votes, their number, and the tally of exactly those votes; no stored votes reads as none |
| Tally.TallyCountsLists | server.js:362-377 | When no selection list repeats an item, an item's count is the number of (ballot, category) lists containing it |
| Tally.TallyExample | server.js:362-377 | For any voters and distinct items x, y, z: three ballots picking x, one of them also y, give x 3 votes with its voters in storage order, y 1 vote with its one voter, and z no votes |
| Voters.AddVoter | server.js:411-430 | An empty name gives 400, an unknown event 404, and a name already on the list in any letter case 400. Otherwise the list gains exactly the trimmed name and comes back sorted. Nothing else changes |
| Voters.AddVoterKeepsNamesDistinct | server.js:411-430 | Adding never creates two names on a list that differ only in letter case |
| Voters.RemoveVoter | server.js:432-450 | An unknown event or no case-insensitive match gives 404 and saves nothing. Otherwise every match goes, every other name stays as often as it was there, and the order is kept |
| Voters.RemoveVoterKeepsSorted | server.js:432-450 | Removing names keeps a sorted list sorted |
| Voters.AddThenRemove | server.js:411-450 | Adding a name and then removing it in any letter case succeeds and restores the original names |
| Lifecycle.ParseStatus | server.js:174-177 | Only the literals `open` and `closed` are statuses, and each reads back as its own spelling |
| Lifecycle.SetStatus | server.js:169-182 | An unknown event gives 404 and any other status text 400. Otherwise only that event's status changes, to the one requested |
| Lifecycle.ToggleRequest | public/admin.js:279-281 | The toggle always requests a valid status, the opposite of the current one |
| Lifecycle.ToggleTwiceRestores | public/admin.js:279-281 | The toggle is always accepted, flips the status, and pressing it twice restores the event exactly |
| Lifecycle.DeleteEvent | server.js:184-202 | An existing event and its votes are removed and nothing else changes. An unknown event gives 404 with no change |
| Lifecycle.ClearEventVotes | server.js:453-468 | Always succeeds. Only that event's votes are removed |
| Lifecycle.ClearedEventHasNoVotes | server.js:453-468 | After a clear, every sheet of the event reads as having no votes, and other events read as before |
| Lifecycle.NoVotingAfterDelete | server.js:184-202 | Once an event is deleted, a vote for it is refused and changes nothing |
| MenuFold.Either | server.js:233-235 | A cell is read from the Thai column when that is truthy, and from the English one otherwise. It is truthy exactly when one of them is |
| MenuFold.QuotaInText | server.js:237-240 | A number written in any wording with no digit before it reads back as that number |
| MenuFold.QuotaWithoutDigits | server.js:237-240 | A quota cell without digits gives the default quota 1 |
| MenuFold.AddItem | server.js:243-250 | Adding an item appends it to the category of that name, or creates the category at the end with the quota in force. Category names stay unique and other categories are untouched |
| MenuFold.FoldSheetSpec | server.js:225-254 | The meaning of `MenuFold.FoldSheet`: the parsed sheet has exactly one category per category that the reference reading finds, in the order of each category's first item row. Names are non-empty and unique. Items come in row order, and the quota is the one in force on the category's first item row |
| MenuFold.FoldAgrees | server.js:228-251 | The fold's running state (current category, current quota, categories built, and their order) agrees with the reference reading after every row |
| MenuFold.NoHeaderNoMenu | server.js:232-251 | Item rows before any category header are dropped, so a sheet with no header yields no category |
| MenuFold.ParseWorkbook | server.js:225-254 | One menu sheet per worksheet, with the same names in workbook order, each the fold of its rows |
| MenuFold.UploadMenu | server.js:214-257 | An unknown event gives 404 with no change. Otherwise only that event's menu is replaced by the parsed workbook |
| Ranking.RankItems | public/app.js:538-542 | The ranked items are a permutation of the category's items, ordered by non-increasing vote count, with a missing tally reading as 0 |
| Ranking.RankItemsStable | public/app.js:538-542 | The sort is stable: items with equal counts keep their menu order |
| Ranking.EffectiveQuota | public/app.js:545 | A quota of 0 counts as 1, and any other quota is itself |
| Ranking.ThresholdIndex | public/app.js:554 | The threshold position is the quota's last place, or the last item when there are fewer items |
| Ranking.RenderCategory | public/app.js:538-585 | The lines list the ranked items (equal counts in menu order), one line each, with its own count. Each line's highlight is the one the verdict on the ranked counts gives that count |
| Ranking.RenderResults | public/app.js:516-585 | With no stored vote the panel shows only the "no votes yet" message and no category. Otherwise it shows the total and one card per category of the sheet, in menu order, each as `Ranking.RenderCategory` describes |
| Ranking.ShownLinesBelong | public/app.js:516-585 | Every line the results panel shows names an item of its own category, with that item's vote count |
| Ranking.AboveBelowQuota | public/app.js:552-567 | Fewer items than the quota are strictly above the threshold |
| Ranking.TieNeedsTwo | public/app.js:552-567 | An unresolved tie always has at least two items at the threshold |
| Ranking.FillsQuota | public/app.js:545-585 | The meaning of `Ranking.Judge` (threshold, tied and above counts, tie flag) and `Ranking.Classify` (each item's highlight): without an unresolved tie, exactly min(quota, items with votes) items are highlighted |
| Ranking.WinnersUnderTie | public/app.js:545-585 | For `Ranking.Judge` and `Ranking.Classify` under an unresolved tie: an item is an outright winner exactly when its count is strictly above the threshold, and is marked tied exactly when it has votes and sits at the threshold. The number of winners is the verdict's count of items above the threshold |
| Ranking.WinnersWithoutTie | public/app.js:567-578 | Without an unresolved tie, nothing is flagged as tied, and at most the quota's number of items win |
| Ranking.StandingsArePrefixes | public/app.js:567-578 | Highlights follow the ranking: no winner comes after a non-winner, and no highlighted item after an unhighlighted one |
| Ranking.NoVotesNoHighlight | public/app.js:567-578 | A category without votes highlights nothing |
| Ranking.TieExample | public/app.js:545-578 | Quota 1 with counts 5, 5, 2: the threshold is 5, two items are tied, none is above, and the tie is unresolved. The leaders are tied and the third is unhighlighted |
| Ranking.SplitExample | public/app.js:545-578 | Quota 2 with counts 5, 3, 3, 0: the leader wins outright, the two 3s are tied for the last place, and 0 is unhighlighted |
| Ranking.NoTieExample | public/app.js:545-578 | Quota 2 with counts 4, 3, 1: the two leaders win and there is no tie |
| Ranking.FinalistsAreHighlighted | public/app.js:111-129 | The meaning of `Ranking.Finalists`: an item is a finalist of the closed-event summary exactly when the live results card highlights it, as a winner or as tied |
| Ranking.FinalistsFillQuota | public/app.js:111-129 | Without an unresolved tie, the summary lists exactly min(quota, items with votes) finalists |
| Ballot.NumCheckedToggle | public/app.js:334-347 | Clicking a box changes the checked count by exactly one in the right direction |
| Ballot.EnforceQuota | public/app.js:334-347 | A checked box is never disabled. An unchecked box is disabled exactly when the category's limit is reached |
| Ballot.EnforceQuotaAtLimit | public/app.js:334-347 | Below the limit every box is enabled. At or over it, exactly the unchecked boxes are disabled |
| Ballot.ClickKeepsWithinLimit | public/app.js:334-347 | From a category within its limit, clicking any enabled box keeps it within the limit |
| Ballot.Picked | public/app.js:411-428 | A category's selection is the values of its checked boxes, one per checked box, in card order: the value of the j-th checked box is at position j |
| Ballot.Submit | public/app.js:350-433 | A sent ballot carries the trimmed name and, for each category in order, its name and checked values |
| Ballot.SubmitSendsIff | public/app.js:350-433 | A ballot is sent exactly when the name is non-blank, the sheet has a category, and every category has between 1 and its limit selections |
| Ballot.LastOffender | public/app.js:411-428 | The meaning of `Ballot.LastError`, the `errMsg` left after the loop: the message shown is that of the last card that fails a check (no selection, or over its limit); every later card passes |
| Ballot.RejectionNamesLastOverLimit | public/app.js:411-433 | A rejected ballot's message names the last category over its limit |
| Ballot.GuardedFormNeverRejected | public/app.js:334-433 | When every category is within its limit, the limit check never rejects. Clicks that `enforceQuota` allows keep a category within its limit (`Ballot.ClickKeepsWithinLimit`) |
| Ballot.SentBallotIsWellFormed | public/app.js:350-433 | What the form sends passes the server's parameter guard, and each selection has between 1 and its limit items |
| Admin.MyEvents | public/admin.js:118-120 | The dashboard lists exactly the events whose creator name equals the logged-in name case-insensitively, with a missing name reading as empty |
| Admin.MyEventsIgnoresCase | public/admin.js:118-120 | Logging in under another letter case of the same name shows the same list |
| Admin.MyEventsKeepsOrder | public/admin.js:118-120 | The list keeps the server's order: its j-th event is the server's event at the j-th position whose creator matches |
| Admin.Init | public/admin.js:509-518 | The builder starts from a copy of the menu with its first sheet current, or from one empty `Sheet1`. The draft is valid either way |
| Admin.SwitchSheet | public/admin.js:534-537 | Clicking a tab makes that sheet current and changes no sheet |
| Admin.AddSheet | public/admin.js:562-576 | The draft changes exactly when the trimmed name is non-empty and not yet a sheet. The change appends an empty sheet under that name and makes it current |
| Admin.DeleteCurrentSheet | public/admin.js:540-550 | With one sheet nothing changes. Otherwise exactly the current sheet goes and the first remaining sheet becomes current |
| Admin.WithCurrent | public/admin.js:581 | Editing the current sheet's categories leaves every other sheet and every sheet name as it was |
| Admin.AddCategory | public/admin.js:684-718 | The draft changes exactly when the trimmed name is non-empty and the quota parses to at least 1. The change appends an empty category with that name and quota to the current sheet. Other sheets, sheet names and the current sheet are unchanged |
| Admin.DeleteCategory | public/admin.js:629-644 | Exactly the chosen category of the current sheet goes, and the rest keep their order. Other sheets, sheet names and the current sheet are unchanged |
| Admin.AddItem | public/admin.js:611-624 | The draft changes exactly when the trimmed item name is non-empty. The change appends it to the chosen category. Other sheets, sheet names and the current sheet are unchanged |
| Admin.DeleteItem | public/admin.js:667-670 | Exactly the chosen item goes. The category keeps its name and quota, the other categories are untouched, and so are other sheets, sheet names and the current sheet |
| Admin.AddItemThenDelete | public/admin.js:611-670 | Deleting the item just added restores the draft exactly |
| Admin.AddCategoryThenDelete | public/admin.js:629-718 | Deleting the category just added restores the draft exactly |
| Admin.AddSheetThenDelete | public/admin.js:540-576 | Deleting the sheet just added restores the sheets, with the first sheet current |
| Strings.TrimIdempotent | server.js:425 | Trimming twice is trimming once |
| Strings.LowerIdempotent | server.js:421 | Lower-casing twice is lower-casing once |

## Left out

- File and network I/O, the JSON files, multer uploads, UUIDs, timestamps (the vote's timestamp is a parameter), the DOM, charts, notifications and concurrency between requests are not modelled. Routes are pure functions of the stored state.
- Reading an `.xlsx` file into rows is the `xlsx` library's work. A worksheet is given as its name and its rows, with each row a map from header to cell value. A value is text, a whole number or a truth value. A numeric 0, `false` and an empty or absent cell are falsy and skipped. Other numbers are read in their decimal spelling. JavaScript writes a number of magnitude 1e21 or more in exponent form (`1e+21`, which reads as quota 1); that spelling is not modelled. Fractional numbers and date cells are not modelled. The "no file uploaded" 400 and the 500 on a parse failure depend on that library and are left out.
- Request bodies and stored votes are typed: a voter name is text, and selections map category names to lists of text. The server does not check types. A non-string `voterName` makes `voterName.trim()` throw (server.js:320), and the request fails with a 500. A selections value that is not an array passes the guard at server.js:303 and is stored; every later `GET /api/results` for that sheet then throws at `items.forEach` (server.js:367-368). None of these failures is modelled.
- Names that collide with `Object.prototype` members (`constructor`, `toString`, …) are not modelled; the model treats every name as an ordinary key. In the code such a name finds an inherited value:
  - An item so named makes `votersByItem[item].push` throw (server.js:368-372).
  - A sheet so named (an uploaded worksheet can be) has no vote list created for it (server.js:327), so `votesForSheet.findIndex` throws and every vote on it fails with a 500 (server.js:331). `GET /api/results` for it throws at `sheetVotes.forEach` (server.js:361-365). The model accepts the vote and reports an empty tally.
  - An event id so named passes the existence check (server.js:310): a vote gets 403 and a results request a 500. The model answers 404.
- Duplicate worksheet names: `MenuFold.ParseWorkbook` and `MenuFold.UploadMenu` require distinct names, because a workbook cannot hold two sheets of the same name.
- `toLowerCase` and `trim` are modelled on ASCII letters and a fixed set of whitespace characters. Full Unicode case mapping and the complete whitespace class are left out.
- `localeCompare(b, 'th')` is modelled as code-point order. Thai collation rules are not modelled.
- `parseInt` of a digit run is exact. Floating-point precision loss on digit runs longer than 15 digits is left out.
- JavaScript's reordering of integer-like object keys (a sheet named "1" listed first) is left out. Keys keep insertion order.
- `PUT /api/events/:eventId/menu`, event creation, event update, the template download and the helper scripts are outside the modelled core.
- A category without a `quota` field can only arrive through that raw PUT. Its limit parses to NaN and never fires in the form. Quotas here are natural numbers.
- Ballot.Submit: the form reads the menu's categories for the "incomplete" check and the rendered cards for the limit check. The model uses one list of cards for both, which is what a rendered sheet shows. Two categories with the same name in one sheet, which `FormData` would merge, are not modelled.
- Ballot.EnforceQuota: the `disabled` CSS class on the label mirrors the flag and is not modelled separately. The page runs `enforceQuota` only when a box changes (public/app.js:326-327) and after pre-filling (public/app.js:282-286). A freshly rendered card therefore has every box enabled. With a limit of 0, which a quota cell "0" gives, the first box can still be checked, and any ballot is then rejected.
- Ballot.GuardedFormNeverRejected: the form does not keep every card within its limit. `preFillCheckboxes` (public/app.js:266-286) restores earlier picks without checking them against the limit. Each earlier pick checks the first box in the whole form with that value, whatever its category. A lowered quota or a re-uploaded menu can therefore leave a card over its limit. The lemma states the conditional only: cards within their limits are never rejected.
- Admin.AddCategory: the "please create a sheet first" guard cannot fire, because every builder state has a current sheet (`Admin.Valid`). It is therefore not modelled as an outcome.
- Admin.DeleteCategory, Admin.AddItem and Admin.DeleteItem require a valid category (and item) index, because the buttons exist only for rendered entries.
- Swal confirmation dialogs are modelled as already confirmed. A cancelled dialog is a no-op.

=== FILE: admin.dfy ===
/**
 * The admin page's state that is not just a view of the server
 * (public/admin.js): the list of the logged-in creator's events (118-120)
 * and the draft edited by the manual menu builder (509-716). The builder
 * keeps a deep copy of the event's menu and a current sheet; its buttons
 * add and delete sheets, categories and items on the copy, and only the
 * save button sends it to the server.
 */
module Admin {
  import opened Strings
  import opened Schema
  import Ballot

  // ---------------------------------------------------------------------------
  // The dashboard's event list.
  // ---------------------------------------------------------------------------

  /** `(e.creatorName || '').toLowerCase() === loggedInCreator.toLowerCase()`; a missing name is "". */
  predicate CreatedBy(e: Event, creator: string) {
    Lower(e.creatorName) == Lower(creator)
  }

  /** `allEvents.filter(...)`: the creator's events, in the server's order. */
  function MyEvents(events: seq<Event>, creator: string): (r: seq<Event>)
    ensures |r| <= |events|
    ensures forall e :: e in r <==> e in events && CreatedBy(e, creator)
  {
    if |events| == 0 then []
    else
      var front := events[..|events| - 1];
      var e := events[|events| - 1];
      assert events == front + [e];
      MyEvents(front, creator) + (if CreatedBy(e, creator) then [e] else [])
  }

  /** Logging in under another spelling of the same name shows the same list. */
  lemma {:induction false} MyEventsIgnoresCase(events: seq<Event>, a: string, b: string)
    requires Lower(a) == Lower(b)
    ensures MyEvents(events, a) == MyEvents(events, b)
  {
    if |events| > 0 {
      MyEventsIgnoresCase(events[..|events| - 1], a, b);
    }
  }

  /** Which events of the server's list the creator made, position by position. */
  function Mine(events: seq<Event>, creator: string): seq<bool> {
    seq(|events|, k requires 0 <= k < |events| => CreatedBy(events[k], creator))
  }

  /**
   * The list keeps the server's order: its `j`-th event is the server's event
   * at the `j`-th position that the creator made.
   */
  lemma {:induction false} MyEventsKeepsOrder(events: seq<Event>, creator: string)
    ensures var p := Ballot.CheckedPositions(Mine(events, creator));
      |MyEvents(events, creator)| == |p|
      && forall j :: 0 <= j < |p| ==> MyEvents(events, creator)[j] == events[p[j]]
  {
    if |events| > 0 {
      var n := |events| - 1;
      var front := events[..n];
      MyEventsKeepsOrder(front, creator);
      assert Mine(events, creator)[..n] == Mine(front, creator);
      var p := Ballot.CheckedPositions(Mine(front, creator));
      var tail := if CreatedBy(events[n], creator) then [n] else [];
      assert Ballot.CheckedPositions(Mine(events, creator)) == p + tail;
      var mine := MyEvents(front, creator);
      var r := MyEvents(events, creator);
      assert r == mine + (if CreatedBy(events[n], creator) then [events[n]] else []);
      var q := p + tail;
      forall j | 0 <= j < |q|
        ensures r[j] == events[q[j]]
      {
        if j < |p| {
          assert r[j] == mine[j] && q[j] == p[j];
          assert front[p[j]] == events[p[j]];
        }
      }
    }
  }

  // ---------------------------------------------------------------------------
  // The manual menu builder.
  // ---------------------------------------------------------------------------

  /** `manualMenuState` with `manualCurrentSheet`. */
  datatype Draft = Draft(sheets: Menu, current: string)

  /** What every builder action keeps: at least one sheet, distinct sheet names, and a current sheet that exists. */
  predicate Valid(d: Draft) {
    |d.sheets| >= 1 && UniqueSheetNames(d.sheets) && HasSheet(d.sheets, d.current)
  }

  const DefaultSheet: string := "Sheet1"

  /** `initManualMenuBuilder`: a copy of the menu with its first sheet current, or one empty `Sheet1`. */
  function Init(menu: Menu): (d: Draft)
    requires UniqueSheetNames(menu)
    ensures Valid(d)
    ensures |menu| == 0 ==> d == Draft([Sheet(DefaultSheet, [])], DefaultSheet)
    ensures |menu| > 0 ==> d.sheets == menu && d.current == menu[0].name
  {
    if |menu| == 0 then
      var d := Draft([Sheet(DefaultSheet, [])], DefaultSheet);
      assert d.sheets[0].name == DefaultSheet;
      d
    else Draft(menu, menu[0].name)
  }

  /** The position of the sheet called `name`. */
  function SheetIndex(m: Menu, name: string): (i: nat)
    requires HasSheet(m, name)
    ensures i < |m| && m[i].name == name
  {
    if m[0].name == name then 0
    else
      assert HasSheet(m[1..], name) by {
        var k :| 0 <= k < |m| && m[k].name == name;
        assert m[1..][k - 1] == m[k];
      }
      1 + SheetIndex(m[1..], name)
  }

  lemma SheetIndexUnique(m: Menu, name: string, k: nat)
    requires UniqueSheetNames(m) && k < |m| && m[k].name == name
    ensures SheetIndex(m, name) == k
  {
  }

  /** A sheet's tab was clicked: it becomes current. */
  function SwitchSheet(d: Draft, name: string): (r: Draft)
    requires Valid(d) && HasSheet(d.sheets, name)
    ensures Valid(r) && r.sheets == d.sheets && r.current == name
  {
    d.(current := name)
  }

  /**
   * "+ Add Topic (Sheet)": a trimmed, non-empty name that is not yet a sheet
   * adds an empty sheet at the end and makes it current; anything else
   * changes nothing.
   */
  function AddSheet(d: Draft, input: string): (r: Draft)
    requires Valid(d)
    ensures Valid(r)
    ensures r != d <==> Trim(input) != "" && !HasSheet(d.sheets, Trim(input))
    ensures r != d ==> r.sheets == d.sheets + [Sheet(Trim(input), [])] && r.current == Trim(input)
  {
    var name := Trim(input);
    if name == "" || HasSheet(d.sheets, name) then d
    else
      var r := Draft(d.sheets + [Sheet(name, [])], name);
      assert r.sheets[|d.sheets|].name == name;
      assert |r.sheets| != |d.sheets|;
      r
  }

  /**
   * The ✕ on the current tab, shown only while there is more than one
   * sheet: the current sheet goes and the first remaining sheet becomes
   * current. With one sheet there is no button and nothing changes.
   */
  function DeleteCurrentSheet(d: Draft): (r: Draft)
    requires Valid(d)
    ensures Valid(r)
    ensures |d.sheets| == 1 ==> r == d
    ensures |d.sheets| > 1 ==> var i := SheetIndex(d.sheets, d.current);
      && r.sheets == d.sheets[..i] + d.sheets[i + 1..]
      && !HasSheet(r.sheets, d.current)
      && r.current == r.sheets[0].name
  {
    if |d.sheets| == 1 then d
    else
      var i := SheetIndex(d.sheets, d.current);
      var rest := d.sheets[..i] + d.sheets[i + 1..];
      assert forall k :: 0 <= k < |rest| ==> rest[k] == d.sheets[if k < i then k else k + 1];
      assert HasSheet(rest, rest[0].name);
      Draft(rest, rest[0].name)
  }

  /** The categories of the current sheet. */
  function CurrentCategories(d: Draft): seq<Category>
    requires Valid(d)
  {
    d.sheets[SheetIndex(d.sheets, d.current)].categories
  }

  /**
   * The frame of every action on the current sheet: the same sheets with the
   * same names in the same order, the same current sheet, and every other
   * sheet exactly as it was.
   */
  predicate OnlyCurrentChanges(d: Draft, r: Draft) {
    && r.current == d.current
    && |r.sheets| == |d.sheets|
    && (forall k :: 0 <= k < |d.sheets| ==> r.sheets[k].name == d.sheets[k].name)
    && (forall k :: 0 <= k < |d.sheets| && d.sheets[k].name != d.current ==> r.sheets[k] == d.sheets[k])
  }

  /** The draft with the current sheet's categories replaced; every other sheet is untouched. */
  function WithCurrent(d: Draft, cats: seq<Category>): (r: Draft)
    requires Valid(d)
    ensures Valid(r)
    ensures OnlyCurrentChanges(d, r)
    ensures CurrentCategories(r) == cats
  {
    var i := SheetIndex(d.sheets, d.current);
    var r := Draft(d.sheets[i := Sheet(d.current, cats)], d.current);
    assert r.sheets[i].name == d.current;
    SheetIndexUnique(r.sheets, d.current, i);
    r
  }

  /**
   * "Add Category": the form demands a trimmed non-empty name and a quota
   * that parses to an integer of at least 1 (`None` is an input that does not
   * parse). A valid category is appended to the current sheet with no items;
   * an invalid form changes nothing.
   */
  function AddCategory(d: Draft, nameInput: string, quotaInput: Option<int>): (r: Draft)
    requires Valid(d)
    ensures Valid(r)
    ensures r != d <==> Trim(nameInput) != "" && quotaInput.Some? && quotaInput.value >= 1
    ensures OnlyCurrentChanges(d, r)
    ensures r != d ==> CurrentCategories(r) == CurrentCategories(d) + [Category(Trim(nameInput), quotaInput.value, [])]
  {
    var name := Trim(nameInput);
    if name == "" || quotaInput.None? || quotaInput.value < 1 then d
    else
      var r := WithCurrent(d, CurrentCategories(d) + [Category(name, quotaInput.value, [])]);
      assert |CurrentCategories(r)| != |CurrentCategories(d)|;
      r
  }

  /** The 🗑️ of category `c` of the current sheet: exactly that category goes, the rest keep their order. */
  function DeleteCategory(d: Draft, c: nat): (r: Draft)
    requires Valid(d) && c < |CurrentCategories(d)|
    ensures Valid(r) && OnlyCurrentChanges(d, r)
    ensures CurrentCategories(r) == CurrentCategories(d)[..c] + CurrentCategories(d)[c + 1..]
  {
    var cats := CurrentCategories(d);
    WithCurrent(d, cats[..c] + cats[c + 1..])
  }

  /** "+ Item" on category `c`: a trimmed, non-empty name is appended to its items; a blank one changes nothing. */
  function AddItem(d: Draft, c: nat, input: string): (r: Draft)
    requires Valid(d) && c < |CurrentCategories(d)|
    ensures Valid(r) && OnlyCurrentChanges(d, r)
    ensures r != d <==> Trim(input) != ""
    ensures r != d ==> var cats := CurrentCategories(d);
      CurrentCategories(r) == cats[c := cats[c].(items := cats[c].items + [Trim(input)])]
  {
    var name := Trim(input);
    if name == "" then d
    else
      var cats := CurrentCategories(d);
      var r := WithCurrent(d, cats[c := cats[c].(items := cats[c].items + [name])]);
      assert |CurrentCategories(r)[c].items| != |cats[c].items|;
      r
  }

  /** The ✕ of item `i` of category `c`: exactly that item goes; the category keeps its name and quota. */
  function DeleteItem(d: Draft, c: nat, i: nat): (r: Draft)
    requires Valid(d) && c < |CurrentCategories(d)| && i < |CurrentCategories(d)[c].items|
    ensures Valid(r) && OnlyCurrentChanges(d, r)
    ensures var cats := CurrentCategories(d);
      && |CurrentCategories(r)| == |cats|
      && CurrentCategories(r)[c] == cats[c].(items := cats[c].items[..i] + cats[c].items[i + 1..])
      && forall k :: 0 <= k < |cats| && k != c ==> CurrentCategories(r)[k] == cats[k]
  {
    var cats := CurrentCategories(d);
    var items := cats[c].items;
    WithCurrent(d, cats[c := cats[c].(items := items[..i] + items[i + 1..])])
  }

  /** Putting back the current sheet's own categories changes nothing. */
  lemma WithCurrentSame(d: Draft)
    requires Valid(d)
    ensures WithCurrent(d, CurrentCategories(d)) == d
  {
    var i := SheetIndex(d.sheets, d.current);
    assert d.sheets[i] == Sheet(d.current, CurrentCategories(d));
  }

  /** Replacing the current categories twice keeps only the second replacement. */
  lemma WithCurrentTwice(d: Draft, a: seq<Category>, b: seq<Category>)
    requires Valid(d)
    ensures WithCurrent(WithCurrent(d, a), b) == WithCurrent(d, b)
  {
    var i := SheetIndex(d.sheets, d.current);
    var once := WithCurrent(d, a);
    SheetIndexUnique(once.sheets, d.current, i);
  }

  /** Deleting the item just added restores the draft. */
  lemma AddItemThenDelete(d: Draft, c: nat, input: string)
    requires Valid(d) && c < |CurrentCategories(d)| && Trim(input) != ""
    ensures var added := AddItem(d, c, input);
      c < |CurrentCategories(added)|
      && DeleteItem(added, c, |CurrentCategories(d)[c].items|) == d
  {
    var cats := CurrentCategories(d);
    var added := AddItem(d, c, input);
    var n := |cats[c].items|;
    var grown := cats[c].items + [Trim(input)];
    assert grown[..n] + grown[n + 1..] == cats[c].items;
    assert cats[c := cats[c].(items := grown)][c := cats[c]] == cats;
    WithCurrentTwice(d, cats[c := cats[c].(items := grown)], cats);
    WithCurrentSame(d);
  }

  /** Deleting the category just added restores the draft. */
  lemma AddCategoryThenDelete(d: Draft, nameInput: string, quota: int)
    requires Valid(d) && Trim(nameInput) != "" && quota >= 1
    ensures var added := AddCategory(d, nameInput, Some(quota));
      |CurrentCategories(d)| < |CurrentCategories(added)|
      && DeleteCategory(added, |CurrentCategories(d)|) == d
  {
    var cats := CurrentCategories(d);
    var grown := cats + [Category(Trim(nameInput), quota, [])];
    assert grown[..|cats|] + grown[|cats| + 1..] == cats;
    WithCurrentTwice(d, grown, cats);
    WithCurrentSame(d);
  }

  /** Deleting a sheet just added restores the sheets; the first sheet becomes current. */
  lemma AddSheetThenDelete(d: Draft, input: string)
    requires Valid(d) && Trim(input) != "" && !HasSheet(d.sheets, Trim(input))
    ensures DeleteCurrentSheet(AddSheet(d, input)) == Draft(d.sheets, d.sheets[0].name)
  {
    var added := AddSheet(d, input);
    SheetIndexUnique(added.sheets, Trim(input), |d.sheets|);
    assert added.sheets[..|d.sheets|] + added.sheets[|d.sheets| + 1..] == d.sheets;
  }
}

=== FILE: ballot.dfy ===
/**
 * The ballot form of the voting page (public/app.js): `enforceQuota`
 * (334-347), which disables the unchecked boxes of a category once its limit
 * is reached, and the submit handler (369-433), which decides whether a
 * ballot is sent and, if not, which message the voter sees. The server
 * checks no quota, so this form is the only place the limits are enforced.
 */
module Ballot {
  import opened Strings
  import opened Schema
  import Votes

  /** How many boxes are checked. */
  function NumChecked(checked: seq<bool>): (n: nat)
    ensures n <= |checked|
  {
    if |checked| == 0 then 0
    else NumChecked(checked[..|checked| - 1]) + (if checked[|checked| - 1] then 1 else 0)
  }

  /** Checking an unchecked box adds one to the count; unchecking a checked one takes one off. */
  lemma {:induction false} NumCheckedToggle(checked: seq<bool>, i: nat)
    requires i < |checked|
    ensures NumChecked(checked[i := !checked[i]]) == if checked[i] then NumChecked(checked) - 1 else NumChecked(checked) + 1
  {
    var n := |checked| - 1;
    var toggled := checked[i := !checked[i]];
    assert toggled[..n] == if i == n then checked[..n] else checked[..n][i := !checked[i]];
    if i < n {
      NumCheckedToggle(checked[..n], i);
    }
  }

  /**
   * `enforceQuota`: the `disabled` flag of each box. A checked box is never
   * disabled; an unchecked box is disabled exactly when the limit is reached.
   */
  function EnforceQuota(checked: seq<bool>, limit: nat): (disabled: seq<bool>)
    ensures |disabled| == |checked|
    ensures forall i :: 0 <= i < |checked| && checked[i] ==> !disabled[i]
    ensures forall i :: 0 <= i < |checked| && !checked[i] ==> (disabled[i] <==> NumChecked(checked) >= limit)
  {
    var full := NumChecked(checked) >= limit;
    seq(|checked|, i requires 0 <= i < |checked| => !checked[i] && full)
  }

  /**
   * From a category within its limit, clicking any box that `enforceQuota`
   * left enabled keeps it within the limit.
   */
  lemma ClickKeepsWithinLimit(checked: seq<bool>, limit: nat, i: nat)
    requires NumChecked(checked) <= limit
    requires i < |checked| && !EnforceQuota(checked, limit)[i]
    ensures NumChecked(checked[i := !checked[i]]) <= limit
  {
    NumCheckedToggle(checked, i);
  }

  /** Below the limit every box is enabled; at the limit the unchecked ones are all disabled. */
  lemma EnforceQuotaAtLimit(checked: seq<bool>, limit: nat)
    ensures NumChecked(checked) < limit ==> forall i :: 0 <= i < |checked| ==> !EnforceQuota(checked, limit)[i]
    ensures NumChecked(checked) >= limit ==> forall i :: 0 <= i < |checked| ==> (EnforceQuota(checked, limit)[i] <==> !checked[i])
  {
  }

  /** One category card of the form: its name, its `data-limit`, its items and which of them are checked. */
  datatype Card = Card(category: string, limit: nat, items: seq<string>, checked: seq<bool>)

  predicate WellFormedCard(c: Card) {
    |c.checked| == |c.items|
  }

  /** The positions of the checked boxes, each once, in increasing order. */
  function CheckedPositions(checked: seq<bool>): (p: seq<nat>)
    ensures |p| == NumChecked(checked)
    ensures forall j :: 0 <= j < |p| ==> p[j] < |checked| && checked[p[j]]
    ensures forall j, k :: 0 <= j < k < |p| ==> p[j] < p[k]
    ensures forall i :: 0 <= i < |checked| && checked[i] ==> i in p
  {
    if |checked| == 0 then []
    else
      var n := |checked| - 1;
      var front := CheckedPositions(checked[..n]);
      assert forall j :: 0 <= j < |front| ==> checked[front[j]] == checked[..n][front[j]];
      assert forall i :: 0 <= i < n ==> checked[..n][i] == checked[i];
      front + (if checked[n] then [n] else [])
  }

  /**
   * The values of the checked boxes in the card's order: one value per
   * checked box, the value of the `j`-th checked box at position `j`.
   */
  function Picked(items: seq<string>, checked: seq<bool>): (r: seq<string>)
    requires |checked| == |items|
    ensures var p := CheckedPositions(checked);
      |r| == |p| && forall j :: 0 <= j < |r| ==> r[j] == items[p[j]]
    ensures |r| == NumChecked(checked)
    ensures forall x :: x in r <==> exists i :: 0 <= i < |items| && checked[i] && items[i] == x
  {
    if |items| == 0 then []
    else
      var n := |items| - 1;
      var front := Picked(items[..n], checked[..n]);
      var p := CheckedPositions(checked[..n]);
      assert forall j :: 0 <= j < |front| ==> front[j] == items[p[j]] by {
        forall j | 0 <= j < |front|
          ensures front[j] == items[p[j]]
        {
          assert items[..n][p[j]] == items[p[j]];
        }
      }
      var r := front + (if checked[n] then [items[n]] else []);
      assert CheckedPositions(checked) == p + (if checked[n] then [n] else []);
      PickedMembers(items, checked, r);
      r
  }

  /** A selection laid out by the checked positions holds exactly the values of the checked boxes. */
  lemma PickedMembers(items: seq<string>, checked: seq<bool>, r: seq<string>)
    requires |checked| == |items|
    requires var p := CheckedPositions(checked);
      |r| == |p| && forall j :: 0 <= j < |r| ==> r[j] == items[p[j]]
    ensures forall x :: x in r <==> exists i :: 0 <= i < |items| && checked[i] && items[i] == x
  {
    var p := CheckedPositions(checked);
    forall x | x in r
      ensures exists i :: 0 <= i < |items| && checked[i] && items[i] == x
    {
      var j :| 0 <= j < |r| && r[j] == x;
      assert checked[p[j]] && items[p[j]] == x;
    }
    forall i | 0 <= i < |items| && checked[i]
      ensures items[i] in r
    {
      var j :| 0 <= j < |p| && p[j] == i;
      assert r[j] == items[i];
    }
  }

  /** What pressing Submit leads to. */
  datatype Outcome =
    | NameRequired                                       // the name field is blank
    | Incomplete                                         // some category has nothing selected
    | NoItems                                            // the sheet has no category
    | Rejected(message: string)                          // a limit check failed
    | Send(voterName: string, selections: seq<Selection>) // the `POST /api/vote` body

  /** The message a card contributes in the limit check, if any. */
  function CardError(c: Card): Option<string>
    requires WellFormedCard(c)
  {
    var n := NumChecked(c.checked);
    if n > c.limit then Some("Too many items selected in " + c.category)
    else if n == 0 then Some("Please select at least one item from " + c.category)
    else None
  }

  /** `errMsg` after the loop over the cards: the last message assigned wins. */
  function LastError(cards: seq<Card>): Option<string>
    requires forall k :: 0 <= k < |cards| ==> WellFormedCard(cards[k])
  {
    if |cards| == 0 then None
    else if CardError(cards[|cards| - 1]).Some? then CardError(cards[|cards| - 1])
    else LastError(cards[..|cards| - 1])
  }

  function SelectionOf(c: Card): Selection
    requires WellFormedCard(c)
  {
    Selection(c.category, Picked(c.items, c.checked))
  }

  /** The submit handler, given the name field and the cards of the current sheet. */
  function Submit(nameField: string, cards: seq<Card>): (r: Outcome)
    requires forall k :: 0 <= k < |cards| ==> WellFormedCard(cards[k])
    ensures r.Send? ==> r.voterName == Trim(nameField) && |r.selections| == |cards|
    ensures r.Send? ==> forall k :: 0 <= k < |cards| ==> r.selections[k] == SelectionOf(cards[k])
  {
    var name := Trim(nameField);
    if name == "" then NameRequired
    else if exists k :: 0 <= k < |cards| && NumChecked(cards[k].checked) == 0 then Incomplete
    else if |cards| == 0 then NoItems
    else match LastError(cards)
      case Some(m) => Rejected(m)
      case None => Send(name, seq(|cards|, k requires 0 <= k < |cards| => SelectionOf(cards[k])))
  }

  predicate WithinLimit(c: Card) {
    1 <= NumChecked(c.checked) <= c.limit
  }

  lemma {:induction false} LastErrorNone(cards: seq<Card>)
    requires forall k :: 0 <= k < |cards| ==> WellFormedCard(cards[k])
    ensures LastError(cards).None? <==> forall k :: 0 <= k < |cards| ==> WithinLimit(cards[k])
  {
    if |cards| > 0 {
      LastErrorNone(cards[..|cards| - 1]);
      assert forall k :: 0 <= k < |cards| - 1 ==> cards[..|cards| - 1][k] == cards[k];
    }
  }

  /**
   * A ballot is sent exactly when the name is filled in, the sheet has a
   * category, and every category has between one and its limit selections.
   */
  lemma SubmitSendsIff(nameField: string, cards: seq<Card>)
    requires forall k :: 0 <= k < |cards| ==> WellFormedCard(cards[k])
    ensures Submit(nameField, cards).Send? <==>
      Trim(nameField) != "" && |cards| > 0 && forall k :: 0 <= k < |cards| ==> WithinLimit(cards[k])
  {
    LastErrorNone(cards);
  }

  /** The card `LastError` reports on: the last card that fails a check. */
  function LastOffender(cards: seq<Card>): (j: nat)
    requires forall k :: 0 <= k < |cards| ==> WellFormedCard(cards[k])
    requires LastError(cards).Some?
    ensures j < |cards| && CardError(cards[j]) == LastError(cards)
    ensures forall k :: j < k < |cards| ==> CardError(cards[k]).None?
  {
    var n := |cards| - 1;
    if CardError(cards[n]).Some? then n
    else
      var front := cards[..n];
      assert forall k :: 0 <= k < n ==> front[k] == cards[k];
      assert LastError(cards) == LastError(front);
      var j := LastOffender(front);
      assert CardError(cards[j]) == CardError(front[j]);
      j
  }

  /**
   * A ballot that reaches the limit check and fails it reports the last
   * category over its limit, by name.
   */
  lemma RejectionNamesLastOverLimit(nameField: string, cards: seq<Card>)
    requires forall k :: 0 <= k < |cards| ==> WellFormedCard(cards[k])
    requires Submit(nameField, cards).Rejected?
    ensures exists j :: (0 <= j < |cards|
      && NumChecked(cards[j].checked) > cards[j].limit
      && Submit(nameField, cards).message == "Too many items selected in " + cards[j].category
      && forall k :: j < k < |cards| ==> NumChecked(cards[k].checked) <= cards[k].limit)
  {
    var j := LastOffender(cards);
    assert forall k :: j < k < |cards| ==> NumChecked(cards[k].checked) <= cards[k].limit;
  }

  /** A ballot whose every card is within its limit is never rejected by the limit check. */
  lemma GuardedFormNeverRejected(nameField: string, cards: seq<Card>)
    requires forall k :: 0 <= k < |cards| ==> WellFormedCard(cards[k])
    requires forall k :: 0 <= k < |cards| ==> NumChecked(cards[k].checked) <= cards[k].limit
    ensures !Submit(nameField, cards).Rejected?
  {
    if Submit(nameField, cards).Rejected? {
      RejectionNamesLastOverLimit(nameField, cards);
    }
  }

  /**
   * What the form sends passes the server's first guard: the name is
   * non-empty and the selections have a key for every category, each with
   * between one and its limit items.
   */
  lemma SentBallotIsWellFormed(nameField: string, cards: seq<Card>, eventId: string, sheet: string)
    requires forall k :: 0 <= k < |cards| ==> WellFormedCard(cards[k])
    requires eventId != "" && sheet != ""
    requires Submit(nameField, cards).Send?
    ensures var r := Submit(nameField, cards);
      && !Votes.MissingParams(Votes.VoteRequest(eventId, sheet, r.voterName, r.selections))
      && forall k :: 0 <= k < |r.selections| ==> 1 <= |r.selections[k].items| <= cards[k].limit
  {
    SubmitSendsIff(nameField, cards);
  }
}

=== FILE: lifecycle.dfy ===
/**
 * Event lifecycle routes of server.js: opening and closing voting
 * (169-182), deleting an event together with its votes (184-202) and
 * clearing one event's votes (453-468); plus the admin page's
 * open/close toggle (public/admin.js:279-281), which decides the status it
 * asks the server for.
 */
module Lifecycle {
  import opened Schema
  import Votes

  /** The JSON spelling of a status. */
  function StatusText(st: Status): string {
    match st
    case Open => "open"
    case Closed => "closed"
  }

  /** The status a request body names, or `None` for anything but the two literals. */
  function ParseStatus(s: string): (r: Option<Status>)
    ensures r.Some? <==> s == "open" || s == "closed"
    ensures r.Some? ==> StatusText(r.value) == s
  {
    if s == "open" then Some(Open)
    else if s == "closed" then Some(Closed)
    else None
  }

  lemma ParseStatusText(st: Status)
    ensures ParseStatus(StatusText(st)) == Some(st)
  {
  }

  /**
   * `PUT /api/events/:eventId/status`: an unknown event is `NotFound`, a
   * status other than `open` or `closed` is `BadRequest`; otherwise only
   * that event's status changes.
   */
  function SetStatus(events: Events, eventId: string, requested: string): (r: Step<Events>)
    ensures r.outcome != Ok ==> r.state == events
    ensures eventId !in events ==> r.outcome == NotFound
    ensures eventId in events && requested != "open" && requested != "closed" ==> r.outcome == BadRequest
    ensures r.outcome == Ok <==> eventId in events && (requested == "open" || requested == "closed")
    ensures r.outcome == Ok ==> r.state.Keys == events.Keys
    ensures r.outcome == Ok ==> forall e :: e in events && e != eventId ==> r.state[e] == events[e]
    ensures r.outcome == Ok ==> StatusText(r.state[eventId].status) == requested
    ensures r.outcome == Ok ==> r.state[eventId] == events[eventId].(status := r.state[eventId].status)
  {
    if eventId !in events then Step(NotFound, events)
    else match ParseStatus(requested)
      case None => Step(BadRequest, events)
      case Some(st) => Step(Ok, events[eventId := events[eventId].(status := st)])
  }

  /** The status the admin page's toggle button requests: always the opposite of the current one. */
  function ToggleRequest(current: Status): (r: string)
    ensures ParseStatus(r).Some? && ParseStatus(r).value != current
  {
    if current == Open then "closed" else "open"
  }

  /** The toggle is always accepted for an existing event, and pressing it twice restores the event. */
  lemma ToggleTwiceRestores(events: Events, eventId: string)
    requires eventId in events
    ensures var once := SetStatus(events, eventId, ToggleRequest(events[eventId].status));
      && once.outcome == Ok
      && once.state[eventId].status != events[eventId].status
      && SetStatus(once.state, eventId, ToggleRequest(once.state[eventId].status)) == Step(Ok, events)
  {
    var once := SetStatus(events, eventId, ToggleRequest(events[eventId].status)).state;
    var twice := SetStatus(once, eventId, ToggleRequest(once[eventId].status)).state;
    assert twice[eventId] == events[eventId];
    assert twice == events;
  }

  /**
   * `DELETE /api/events/:eventId`: the event goes, and with it its entry in
   * the vote map; an unknown event is `NotFound` and nothing changes.
   */
  function DeleteEvent(events: Events, store: VoteStore, eventId: string): (r: Step<(Events, VoteStore)>)
    ensures r.outcome == Ok <==> eventId in events
    ensures r.outcome != Ok ==> r.outcome == NotFound && r.state == (events, store)
    ensures r.outcome == Ok ==> r.state.0.Keys == events.Keys - {eventId}
    ensures r.outcome == Ok ==> r.state.1.Keys == store.Keys - {eventId}
    ensures forall e :: e in r.state.0 ==> e in events && r.state.0[e] == events[e]
    ensures forall e :: e in r.state.1 ==> e in store && r.state.1[e] == store[e]
  {
    if eventId in events then Step(Ok, (events - {eventId}, store - {eventId}))
    else Step(NotFound, (events, store))
  }

  /** `DELETE /api/events/:eventId/votes`: drops one event's votes and keeps every other event's. */
  function ClearEventVotes(store: VoteStore, eventId: string): (r: Step<VoteStore>)
    ensures r.outcome == Ok
    ensures r.state.Keys == store.Keys - {eventId}
    ensures forall e :: e in r.state ==> r.state[e] == store[e]
  {
    Step(Ok, store - {eventId})
  }

  /** After the clear, every sheet of the event reads as having no votes; other events read as before. */
  lemma ClearedEventHasNoVotes(store: VoteStore, eventId: string, e: string, sheet: string)
    ensures VotesAt(ClearEventVotes(store, eventId).state, eventId, sheet) == []
    ensures e != eventId ==> VotesAt(ClearEventVotes(store, eventId).state, e, sheet) == VotesAt(store, e, sheet)
  {
  }

  /** Once an event is deleted, a vote for it is refused as `NotFound` (or `BadRequest` when malformed). */
  lemma NoVotingAfterDelete(events: Events, store: VoteStore, eventId: string, q: Votes.VoteRequest, now: string)
    requires DeleteEvent(events, store, eventId).outcome == Ok
    requires q.eventId == eventId
    ensures var after := DeleteEvent(events, store, eventId).state;
      var r := Votes.SubmitVote(after.0, after.1, q, now);
      r.outcome in {NotFound, BadRequest} && r.state == after.1
  {
  }
}

=== FILE: menufold.dfy ===
/**
 * The row-folding step of `POST /api/upload-menu/:eventId`
 * (server.js:225-254). Reading the workbook is left to the xlsx library;
 * each sheet arrives as a sequence of rows, a row being the map from column
 * header to the cell's value. A "current category" and a "current quota"
 * carry forward from row to row, so a category header or a quota need only
 * be written on the first row of a block.
 */
module MenuFold {
  import opened Strings
  import opened Schema

  /**
   * A cell as the sheet reader hands it over: text, a whole number or a
   * truth value. An absent cell is read as the empty text; both are falsy
   * and neither is ever converted.
   */
  datatype Value = Str(text: string) | Num(n: int) | Bool(b: bool)

  /** JavaScript truthiness: non-empty text, a non-zero number, `true`. */
  predicate Truthy(v: Value) {
    match v
    case Str(t) => t != ""
    case Num(n) => n != 0
    case Bool(b) => b
  }

  /** `toString()`: a number in its decimal spelling, a truth value as `true` or `false`. */
  function AsText(v: Value): (t: string)
    ensures v.Str? ==> t == v.text
    ensures v.Num? && v.n >= 0 ==> t == DecimalText(v.n)
    ensures v.Num? && v.n < 0 ==> t == "-" + DecimalText(-v.n)
  {
    match v
    case Str(t) => t
    case Num(n) => if n >= 0 then DecimalText(n) else "-" + DecimalText(-n)
    case Bool(b) => if b then "true" else "false"
  }

  /** One spreadsheet row: column header to cell value. */
  type Row = map<string, Value>

  const CategoryHeaderTh: string := "หมวดหมู่ (Category)"
  const CategoryHeaderEn: string := "Category"
  const QuotaHeaderTh: string := "โควตาการเลือก"
  const QuotaHeaderEn: string := "Quota"
  const ItemHeaderTh: string := "รายการอาหาร (Menu Items)"
  const ItemHeaderEn: string := "Items"

  function Cell(row: Row, header: string): Value {
    if header in row then row[header] else Str("")
  }

  /** `row[th] || row[en]`: the Thai column's value when it is truthy, else the English column's. */
  function Either(row: Row, th: string, en: string): (r: Value)
    ensures Truthy(Cell(row, th)) ==> r == Cell(row, th)
    ensures !Truthy(Cell(row, th)) ==> r == Cell(row, en)
    ensures Truthy(r) <==> Truthy(Cell(row, th)) || Truthy(Cell(row, en))
  {
    if Truthy(Cell(row, th)) then Cell(row, th) else Cell(row, en)
  }

  function CategoryCell(row: Row): Value { Either(row, CategoryHeaderTh, CategoryHeaderEn) }
  function QuotaCell(row: Row): Value { Either(row, QuotaHeaderTh, QuotaHeaderEn) }
  function ItemCell(row: Row): Value { Either(row, ItemHeaderTh, ItemHeaderEn) }

  // ---------------------------------------------------------------------------
  // Quota text: `text.match(/\d+/)` then `parseInt(match[0], 10)`, or 1.
  // ---------------------------------------------------------------------------

  predicate IsDigit(c: char) {
    '0' <= c <= '9'
  }

  function DigitValue(c: char): nat
    requires IsDigit(c)
  {
    c as int - '0' as int
  }

  /** The position of the first ASCII digit, or `|s|` when there is none. */
  function FirstDigit(s: string): (i: nat)
    ensures i <= |s|
    ensures i < |s| ==> IsDigit(s[i])
    ensures forall k :: 0 <= k < i ==> !IsDigit(s[k])
  {
    if |s| == 0 || IsDigit(s[0]) then 0 else 1 + FirstDigit(s[1..])
  }

  /** The longest prefix of `s` made of digits. */
  function DigitRun(s: string): (r: string)
    ensures |r| <= |s| && r == s[..|r|]
    ensures forall k :: 0 <= k < |r| ==> IsDigit(r[k])
    ensures |r| < |s| ==> !IsDigit(s[|r|])
  {
    if |s| == 0 || !IsDigit(s[0]) then [] else [s[0]] + DigitRun(s[1..])
  }

  /** The number a string of decimal digits denotes. */
  function DecimalValue(digits: string): nat
    requires forall k :: 0 <= k < |digits| ==> IsDigit(digits[k])
  {
    if |digits| == 0 then 0
    else 10 * DecimalValue(digits[..|digits| - 1]) + DigitValue(digits[|digits| - 1])
  }

  /** The quota a cell's text denotes: its first run of digits, or 1 when it has none. */
  function ParseQuota(text: string): nat {
    var i := FirstDigit(text);
    if i == |text| then 1 else DecimalValue(DigitRun(text[i..]))
  }

  /** The decimal spelling of `n`, as a spreadsheet shows a number. */
  function DecimalText(n: nat): (r: string)
    ensures |r| > 0
    ensures forall k :: 0 <= k < |r| ==> IsDigit(r[k])
  {
    var d := ['0', '1', '2', '3', '4', '5', '6', '7', '8', '9'][n % 10];
    if n < 10 then [d] else DecimalText(n / 10) + [d]
  }

  lemma {:induction false} DecimalRoundTrip(n: nat)
    ensures DecimalValue(DecimalText(n)) == n
  {
    var t := DecimalText(n);
    if n >= 10 {
      DecimalRoundTrip(n / 10);
      assert t[..|t| - 1] == DecimalText(n / 10);
    }
  }

  /**
   * A quota written as a number inside any wording ("Pick 2 dishes") reads
   * back as that number, provided no digit precedes it.
   */
  lemma QuotaInText(pre: string, n: nat, post: string)
    requires forall k :: 0 <= k < |pre| ==> !IsDigit(pre[k])
    requires |post| == 0 || !IsDigit(post[0])
    ensures ParseQuota(pre + DecimalText(n) + post) == n
  {
    var t := DecimalText(n);
    var s := pre + t + post;
    FirstDigitIs(s, |pre|);
    assert s[|pre|..] == t + post;
    DigitRunIs(t, post);
    DecimalRoundTrip(n);
  }

  lemma FirstDigitIs(s: string, i: nat)
    requires i < |s| && IsDigit(s[i])
    requires forall k :: 0 <= k < i ==> !IsDigit(s[k])
    ensures FirstDigit(s) == i
  {
  }

  lemma {:induction false} DigitRunIs(t: string, post: string)
    requires forall k :: 0 <= k < |t| ==> IsDigit(t[k])
    requires |post| == 0 || !IsDigit(post[0])
    ensures DigitRun(t + post) == t
  {
    if |t| > 0 {
      assert (t + post)[1..] == t[1..] + post;
      DigitRunIs(t[1..], post);
    } else {
      assert t + post == post;
    }
  }

  /** Text without any digit gives the default quota 1. */
  lemma QuotaWithoutDigits(text: string)
    requires forall k :: 0 <= k < |text| ==> !IsDigit(text[k])
    ensures ParseQuota(text) == 1
  {
  }

  // ---------------------------------------------------------------------------
  // The fold.
  // ---------------------------------------------------------------------------

  /** `sheetMenu`, `currentCategory` and `currentQuota` between two rows. */
  datatype FoldState = FoldState(menu: seq<Category>, current: string, quota: nat)

  function Names(menu: seq<Category>): set<string> {
    set k | 0 <= k < |menu| :: menu[k].name
  }

  lemma NamesCons(head: Category, rest: seq<Category>)
    ensures Names([head] + rest) == {head.name} + Names(rest)
  {
    var m := [head] + rest;
    assert m[0] == head;
    forall x | x in Names(m) ensures x in {head.name} + Names(rest) {
      var k :| 0 <= k < |m| && m[k].name == x;
      if k > 0 { assert rest[k - 1] == m[k]; }
    }
    forall x | x in Names(rest) ensures x in Names(m) {
      var k :| 0 <= k < |rest| && rest[k].name == x;
      assert m[k + 1] == rest[k];
    }
  }

  lemma NamesSnoc(menu: seq<Category>, c: Category)
    ensures Names(menu + [c]) == Names(menu) + {c.name}
  {
    var m := menu + [c];
    assert m[|menu|] == c;
    forall x | x in Names(m) ensures x in Names(menu) + {c.name} {
      var k :| 0 <= k < |m| && m[k].name == x;
      if k < |menu| { assert menu[k] == m[k]; }
    }
    forall x | x in Names(menu) ensures x in Names(m) {
      var k :| 0 <= k < |menu| && menu[k].name == x;
      assert m[k] == menu[k];
    }
  }

  predicate UniqueNames(menu: seq<Category>) {
    forall i, j :: 0 <= i < j < |menu| ==> menu[i].name != menu[j].name
  }

  /** The index of the category called `name`, or -1 (`sheetMenu.find`). */
  function FindCategory(menu: seq<Category>, name: string): (r: int)
    ensures -1 <= r < |menu|
    ensures r >= 0 ==> menu[r].name == name
    ensures r < 0 <==> name !in Names(menu)
  {
    if |menu| == 0 then -1
    else if menu[0].name == name then 0
    else
      var r := FindCategory(menu[1..], name);
      NamesCons(menu[0], menu[1..]);
      assert menu == [menu[0]] + menu[1..];
      if r < 0 then -1 else r + 1
  }

  /**
   * Pushes `item` onto the category called `name`, or pushes a new category
   * of that name created with `quota` and holding just `item`.
   */
  function AddItem(menu: seq<Category>, name: string, quota: nat, item: string): (r: seq<Category>)
    requires UniqueNames(menu)
    ensures UniqueNames(r)
    ensures Names(r) == Names(menu) + {name}
    ensures |r| == if name in Names(menu) then |menu| else |menu| + 1
    ensures forall k :: 0 <= k < |menu| ==> r[k].name == menu[k].name && r[k].quota == menu[k].quota
    ensures forall k :: 0 <= k < |menu| ==> r[k].items == menu[k].items + (if menu[k].name == name then [item] else [])
    ensures name !in Names(menu) ==> r[|menu|] == Category(name, quota, [item])
  {
    var i := FindCategory(menu, name);
    if i < 0 then
      var r := menu + [Category(name, quota, [item])];
      NamesSnoc(menu, Category(name, quota, [item]));
      assert forall k :: 0 <= k < |menu| ==> menu[k].name in Names(menu);
      r
    else
      var r := menu[i := menu[i].(items := menu[i].items + [item])];
      assert forall k :: 0 <= k < |r| ==> r[k].name == menu[k].name;
      assert Names(r) == Names(menu);
      r
  }

  /** One `rawData.forEach` step. */
  function StepRow(st: FoldState, row: Row): FoldState
    requires UniqueNames(st.menu)
  {
    var current := if Truthy(CategoryCell(row)) then Trim(AsText(CategoryCell(row))) else st.current;
    var quota := if Truthy(QuotaCell(row)) then ParseQuota(AsText(QuotaCell(row))) else st.quota;
    var menu := if Truthy(ItemCell(row)) && current != "" then AddItem(st.menu, current, quota, Trim(AsText(ItemCell(row)))) else st.menu;
    FoldState(menu, current, quota)
  }

  /** The state after the given rows, starting from no categories, no current category and quota 1. */
  function FoldRows(rows: seq<Row>): (st: FoldState)
    ensures UniqueNames(st.menu)
  {
    if |rows| == 0 then FoldState([], "", 1)
    else StepRow(FoldRows(rows[..|rows| - 1]), rows[|rows| - 1])
  }

  /** `parsedMenuData[sheetName] = sheetMenu` for one sheet. */
  function FoldSheet(rows: seq<Row>): seq<Category> {
    FoldRows(rows).menu
  }

  // ---------------------------------------------------------------------------
  // Reference reading of a sheet, row by row, without the fold.
  // ---------------------------------------------------------------------------

  /** The category in force after `rows`: the trimmed text of the last truthy category cell, or none. */
  function HeaderInForce(rows: seq<Row>): string {
    if |rows| == 0 then ""
    else if Truthy(CategoryCell(rows[|rows| - 1])) then Trim(AsText(CategoryCell(rows[|rows| - 1])))
    else HeaderInForce(rows[..|rows| - 1])
  }

  /** The quota in force after `rows`: that of the last truthy quota cell, or 1. */
  function QuotaInForce(rows: seq<Row>): nat {
    if |rows| == 0 then 1
    else if Truthy(QuotaCell(rows[|rows| - 1])) then ParseQuota(AsText(QuotaCell(rows[|rows| - 1])))
    else QuotaInForce(rows[..|rows| - 1])
  }

  /** One menu item as the sheet states it: the category and quota in force on its row. */
  datatype Entry = Entry(category: string, quota: nat, item: string)

  /** The items of the sheet in row order; an item row with no category in force yields nothing. */
  function Entries(rows: seq<Row>): seq<Entry> {
    if |rows| == 0 then []
    else
      var row := rows[|rows| - 1];
      var cat := HeaderInForce(rows);
      Entries(rows[..|rows| - 1]) + (if Truthy(ItemCell(row)) && cat != "" then [Entry(cat, QuotaInForce(rows), Trim(AsText(ItemCell(row))))] else [])
  }

  function Headers(es: seq<Entry>): set<string> {
    set e | e in es :: e.category
  }

  /** The categories in the order of their first entry, each once. */
  function FirstSeen(es: seq<Entry>): seq<string> {
    if |es| == 0 then []
    else
      var front := es[..|es| - 1];
      var c := es[|es| - 1].category;
      FirstSeen(front) + (if c in Headers(front) then [] else [c])
  }

  /** The category names of a menu, in menu order. */
  function NameSeq(menu: seq<Category>): (r: seq<string>)
    ensures |r| == |menu|
    ensures forall k :: 0 <= k < |menu| ==> r[k] == menu[k].name
  {
    seq(|menu|, k requires 0 <= k < |menu| => menu[k].name)
  }

  /** The items of category `name`, in row order. */
  function ItemsOf(es: seq<Entry>, name: string): seq<string> {
    if |es| == 0 then []
    else ItemsOf(es[..|es| - 1], name) + (if es[|es| - 1].category == name then [es[|es| - 1].item] else [])
  }

  /** The quota in force on the first row of category `name`. */
  function FirstQuota(es: seq<Entry>, name: string): nat {
    if |es| == 0 then 0
    else if name in Headers(es[..|es| - 1]) then FirstQuota(es[..|es| - 1], name)
    else if es[|es| - 1].category == name then es[|es| - 1].quota
    else 0
  }

  /**
   * The menu holds one category per category of `es`, in the order of first
   * appearance, with its items and first quota.
   */
  ghost predicate Matches(menu: seq<Category>, es: seq<Entry>) {
    && UniqueNames(menu)
    && Names(menu) == Headers(es)
    && NameSeq(menu) == FirstSeen(es)
    && (forall k :: 0 <= k < |menu| ==> menu[k].items == ItemsOf(es, menu[k].name))
    && (forall k :: 0 <= k < |menu| ==> menu[k].quota == FirstQuota(es, menu[k].name))
  }

  ghost predicate Agrees(st: FoldState, rows: seq<Row>) {
    && st.current == HeaderInForce(rows)
    && st.quota == QuotaInForce(rows)
    && Matches(st.menu, Entries(rows))
  }

  lemma EntriesSnoc(es: seq<Entry>, e: Entry, name: string)
    ensures ItemsOf(es + [e], name) == ItemsOf(es, name) + (if e.category == name then [e.item] else [])
    ensures FirstQuota(es + [e], name) == if name in Headers(es) then FirstQuota(es, name) else if e.category == name then e.quota else 0
    ensures Headers(es + [e]) == Headers(es) + {e.category}
    ensures FirstSeen(es + [e]) == FirstSeen(es) + (if e.category in Headers(es) then [] else [e.category])
  {
    assert (es + [e])[..|es|] == es;
  }

  lemma {:induction false} ItemsOfAbsent(es: seq<Entry>, name: string)
    requires name !in Headers(es)
    ensures ItemsOf(es, name) == []
  {
    if |es| > 0 {
      var front := es[..|es| - 1];
      assert es == front + [es[|es| - 1]];
      EntriesSnoc(front, es[|es| - 1], name);
      ItemsOfAbsent(front, name);
    }
  }

  /** Adding the item of one more entry keeps the menu matching the longer entry list. */
  lemma AddItemMatches(menu: seq<Category>, es: seq<Entry>, e: Entry)
    requires Matches(menu, es)
    ensures Matches(AddItem(menu, e.category, e.quota, e.item), es + [e])
  {
    var r := AddItem(menu, e.category, e.quota, e.item);
    EntriesSnoc(es, e, e.category);
    assert NameSeq(r) == NameSeq(menu) + (if e.category in Names(menu) then [] else [e.category]);
    forall k | 0 <= k < |r|
      ensures r[k].items == ItemsOf(es + [e], r[k].name)
      ensures r[k].quota == FirstQuota(es + [e], r[k].name)
    {
      EntriesSnoc(es, e, r[k].name);
      if k < |menu| {
        assert r[k].name in Headers(es) by {
          assert menu[k].name in Names(menu);
        }
      } else {
        ItemsOfAbsent(es, e.category);
      }
    }
  }

  /**
   * The fold builds exactly the reference reading: one category per
   * distinct header that has items, in the order of their first item row,
   * holding that header's items in row order, with the quota in force when
   * its first item was read.
   */
  lemma {:induction false} FoldAgrees(rows: seq<Row>)
    ensures Agrees(FoldRows(rows), rows)
  {
    if |rows| > 0 {
      var front := rows[..|rows| - 1];
      var row := rows[|rows| - 1];
      FoldAgrees(front);
      var st := FoldRows(front);
      var es := Entries(front);
      var cur := HeaderInForce(rows);
      if Truthy(ItemCell(row)) && cur != "" {
        var e := Entry(cur, QuotaInForce(rows), Trim(AsText(ItemCell(row))));
        assert Entries(rows) == es + [e];
        AddItemMatches(st.menu, es, e);
      } else {
        assert Entries(rows) == es;
      }
    }
  }

  /** Every category of the parsed sheet, in order, with its items and quota, as the reference reading states it. */
  lemma FoldSheetSpec(rows: seq<Row>)
    ensures var menu := FoldSheet(rows);
      var es := Entries(rows);
      && UniqueNames(menu)
      && Names(menu) == Headers(es)
      && NameSeq(menu) == FirstSeen(es)
      && (forall k :: 0 <= k < |menu| ==> menu[k].name != "")
      && (forall k :: 0 <= k < |menu| ==> menu[k].items == ItemsOf(es, menu[k].name))
      && (forall k :: 0 <= k < |menu| ==> menu[k].quota == FirstQuota(es, menu[k].name))
  {
    FoldAgrees(rows);
    var menu := FoldSheet(rows);
    forall k | 0 <= k < |menu|
      ensures menu[k].name != ""
    {
      assert menu[k].name in Headers(Entries(rows));
      EntriesHaveHeaders(rows);
    }
  }

  lemma {:induction false} EntriesHaveHeaders(rows: seq<Row>)
    ensures "" !in Headers(Entries(rows))
  {
    if |rows| > 0 {
      EntriesHaveHeaders(rows[..|rows| - 1]);
      var es := Entries(rows[..|rows| - 1]);
      var row := rows[|rows| - 1];
      var cur := HeaderInForce(rows);
      if Truthy(ItemCell(row)) && cur != "" {
        EntriesSnoc(es, Entry(cur, QuotaInForce(rows), Trim(AsText(ItemCell(row)))), "");
      }
    }
  }

  /** Item rows before the first category header are dropped: a sheet with no header yields no category. */
  lemma {:induction false} NoHeaderNoMenu(rows: seq<Row>)
    requires forall k :: 0 <= k < |rows| ==> !Truthy(CategoryCell(rows[k]))
    ensures FoldSheet(rows) == []
  {
    if |rows| > 0 {
      NoHeaderNoMenu(rows[..|rows| - 1]);
      FoldAgrees(rows[..|rows| - 1]);
      NoHeaderCurrentEmpty(rows[..|rows| - 1]);
    }
  }

  lemma {:induction false} NoHeaderCurrentEmpty(rows: seq<Row>)
    requires forall k :: 0 <= k < |rows| ==> !Truthy(CategoryCell(rows[k]))
    ensures HeaderInForce(rows) == ""
  {
    if |rows| > 0 {
      NoHeaderCurrentEmpty(rows[..|rows| - 1]);
    }
  }

  // ---------------------------------------------------------------------------
  // The route.
  // ---------------------------------------------------------------------------

  /** One worksheet of the uploaded workbook: its name and its rows. */
  datatype Worksheet = Worksheet(name: string, rows: seq<Row>)

  /** A workbook names each of its sheets once. */
  predicate UniqueWorksheetNames(book: seq<Worksheet>) {
    forall i, j :: 0 <= i < j < |book| ==> book[i].name != book[j].name
  }

  /** `parsedMenuData`: one menu sheet per worksheet, in workbook order. */
  function ParseWorkbook(book: seq<Worksheet>): (m: Menu)
    requires UniqueWorksheetNames(book)
    ensures |m| == |book|
    ensures UniqueSheetNames(m)
    ensures forall i :: 0 <= i < |book| ==> m[i] == Sheet(book[i].name, FoldSheet(book[i].rows))
  {
    seq(|book|, i requires 0 <= i < |book| => Sheet(book[i].name, FoldSheet(book[i].rows)))
  }

  /**
   * `POST /api/upload-menu/:eventId` after the file was read: an unknown
   * event is `NotFound`; otherwise the event's whole menu is replaced by the
   * parsed workbook and nothing else changes.
   */
  function UploadMenu(events: Events, eventId: string, book: seq<Worksheet>): (r: Step<Events>)
    requires UniqueWorksheetNames(book)
    ensures r.outcome == Ok <==> eventId in events
    ensures r.outcome != Ok ==> r.outcome == NotFound && r.state == events
    ensures r.outcome == Ok ==> r.state.Keys == events.Keys
    ensures r.outcome == Ok ==> forall e :: e in events && e != eventId ==> r.state[e] == events[e]
    ensures r.outcome == Ok ==> r.state[eventId] == events[eventId].(menu := ParseWorkbook(book))
  {
    if eventId !in events then Step(NotFound, events)
    else Step(Ok, events[eventId := events[eventId].(menu := ParseWorkbook(book))])
  }
}

=== FILE: ranking.dfy ===
/**
 * How the voting page ranks one category's items and decides which are
 * winners and which are stuck in a tie (`renderResults`,
 * public/app.js:516-585), and the finalist list shown once an event is
 * closed (public/app.js:113-129).
 *
 * The ranking is a stable sort by descending vote count; the threshold is
 * the count of the item ranked at the quota (or the last item when there
 * are fewer); items with at least one vote and at least the threshold are
 * highlighted, and those exactly at the threshold are flagged as tied when
 * more items reach the threshold than the quota admits.
 */
module Ranking {
  import opened Schema

  /** `data.tally`: item name to number of votes. */
  type Tally = map<string, nat>

  /** `data.tally[item] || 0`. */
  function CountOf(tally: Tally, item: string): nat {
    if item in tally then tally[item] else 0
  }

  /** `sortedItems.map(item => data.tally[item] || 0)`. */
  function CountsOf(tally: Tally, items: seq<string>): (cs: seq<nat>)
    ensures |cs| == |items|
    ensures forall i :: 0 <= i < |items| ==> cs[i] == CountOf(tally, items[i])
  {
    seq(|items|, i requires 0 <= i < |items| => CountOf(tally, items[i]))
  }

  predicate NonIncreasing(cs: seq<nat>) {
    forall i, j :: 0 <= i < j < |cs| ==> cs[i] >= cs[j]
  }

  /** Highest count first. */
  predicate Ranked(tally: Tally, s: seq<string>) {
    forall i, j :: 0 <= i < j < |s| ==> CountOf(tally, s[i]) >= CountOf(tally, s[j])
  }

  // ---------------------------------------------------------------------------
  // The stable sort `[...catObj.items].sort((a, b) => countB - countA)`.
  // ---------------------------------------------------------------------------

  /** Where `x` goes: after every item with at least its count, before every item with fewer. */
  function InsertPos(tally: Tally, s: seq<string>, x: string): (p: nat)
    requires Ranked(tally, s)
    ensures p <= |s|
    ensures forall i :: 0 <= i < p ==> CountOf(tally, s[i]) >= CountOf(tally, x)
    ensures forall i :: p <= i < |s| ==> CountOf(tally, s[i]) < CountOf(tally, x)
  {
    if |s| == 0 || CountOf(tally, s[|s| - 1]) >= CountOf(tally, x) then |s|
    else
      var init := s[..|s| - 1];
      assert forall i :: 0 <= i < |init| ==> init[i] == s[i];
      InsertPos(tally, init, x)
  }

  /** One step of the stable insertion sort: `x` goes after every item with at least its count. */
  function Insert(tally: Tally, s: seq<string>, x: string): (r: seq<string>)
    requires Ranked(tally, s)
    ensures Ranked(tally, r)
    ensures |r| == |s| + 1
    ensures multiset(r) == multiset(s) + multiset{x}
  {
    var p := InsertPos(tally, s, x);
    assert s == s[..p] + s[p..];
    InsertRanked(tally, s[..p], x, s[p..]);
    SpliceMultiset(s, p, x);
    s[..p] + [x] + s[p..]
  }

  lemma SpliceMultiset<T>(s: seq<T>, p: nat, x: T)
    requires p <= |s|
    ensures multiset(s[..p] + [x] + s[p..]) == multiset(s) + multiset{x}
  {
    assert s == s[..p] + s[p..];
  }

  /** `x` fits between a prefix of items with at least its count and a suffix of items with fewer. */
  lemma InsertRanked(tally: Tally, a: seq<string>, x: string, b: seq<string>)
    requires Ranked(tally, a + b)
    requires forall i :: 0 <= i < |a| ==> CountOf(tally, a[i]) >= CountOf(tally, x)
    requires forall i :: 0 <= i < |b| ==> CountOf(tally, b[i]) < CountOf(tally, x)
    ensures Ranked(tally, a + [x] + b)
  {
    var s, r := a + b, a + [x] + b;
    var p := |a|;
    forall i, j | 0 <= i < j < |r|
      ensures CountOf(tally, r[i]) >= CountOf(tally, r[j])
    {
      if j < p {
        assert r[i] == s[i] && r[j] == s[j];
      } else if j == p {
        assert r[i] == a[i];
      } else if i < p {
        assert r[i] == s[i] && r[j] == s[j - 1];
      } else if i == p {
        assert r[j] == b[j - p - 1];
      } else {
        assert r[i] == s[i - 1] && r[j] == s[j - 1];
      }
    }
  }

  /** `sortedItems`: the items by descending count, keeping their menu order among equal counts. */
  function RankItems(tally: Tally, items: seq<string>): (r: seq<string>)
    ensures Ranked(tally, r)
    ensures multiset(r) == multiset(items)
  {
    if |items| == 0 then []
    else
      assert items == items[..|items| - 1] + [items[|items| - 1]];
      Insert(tally, RankItems(tally, items[..|items| - 1]), items[|items| - 1])
  }

  /** The items of `s` with exactly `c` votes, in the order of `s`. */
  function WithCount(tally: Tally, s: seq<string>, c: nat): seq<string> {
    if |s| == 0 then []
    else WithCount(tally, s[..|s| - 1], c) + (if CountOf(tally, s[|s| - 1]) == c then [s[|s| - 1]] else [])
  }

  lemma WithCountSnoc(tally: Tally, s: seq<string>, y: string, c: nat)
    ensures WithCount(tally, s + [y], c) == WithCount(tally, s, c) + (if CountOf(tally, y) == c then [y] else [])
  {
    assert (s + [y])[..|s|] == s;
  }

  lemma {:induction false} WithCountAppend(tally: Tally, a: seq<string>, b: seq<string>, c: nat)
    ensures WithCount(tally, a + b, c) == WithCount(tally, a, c) + WithCount(tally, b, c)
  {
    if |b| == 0 {
      assert a + b == a;
    } else {
      assert (a + b)[..|a + b| - 1] == a + b[..|b| - 1];
      WithCountAppend(tally, a, b[..|b| - 1], c);
    }
  }

  lemma {:induction false} WithCountNone(tally: Tally, s: seq<string>, c: nat)
    requires forall i :: 0 <= i < |s| ==> CountOf(tally, s[i]) != c
    ensures WithCount(tally, s, c) == []
  {
    if |s| > 0 {
      WithCountNone(tally, s[..|s| - 1], c);
    }
  }

  /** Putting `x` in front of items that all have fewer votes adds it to its count's group last. */
  lemma SpliceWithCount(tally: Tally, a: seq<string>, x: string, b: seq<string>, c: nat)
    requires forall i :: 0 <= i < |b| ==> CountOf(tally, b[i]) < CountOf(tally, x)
    ensures WithCount(tally, a + [x] + b, c) == WithCount(tally, a + b, c) + (if CountOf(tally, x) == c then [x] else [])
  {
    var tail := if CountOf(tally, x) == c then [x] else [];
    WithCountAppend(tally, a + [x], b, c);
    WithCountAppend(tally, a, b, c);
    WithCountSnoc(tally, a, x, c);
    if CountOf(tally, x) == c {
      WithCountNone(tally, b, c);
      assert WithCount(tally, a + [x] + b, c) == WithCount(tally, a, c) + tail;
    } else {
      assert WithCount(tally, a + [x] + b, c) == WithCount(tally, a, c) + WithCount(tally, b, c);
    }
  }

  lemma InsertStable(tally: Tally, s: seq<string>, x: string, c: nat)
    requires Ranked(tally, s)
    ensures WithCount(tally, Insert(tally, s, x), c)
         == WithCount(tally, s, c) + (if CountOf(tally, x) == c then [x] else [])
  {
    var p := InsertPos(tally, s, x);
    assert s == s[..p] + s[p..];
    SpliceWithCount(tally, s[..p], x, s[p..], c);
  }

  /**
   * The sort is stable: among items with the same count, the ranking keeps
   * the menu's order (the engine's sort has been stable since ECMAScript 2019).
   */
  lemma {:induction false} RankItemsStable(tally: Tally, items: seq<string>, c: nat)
    ensures WithCount(tally, RankItems(tally, items), c) == WithCount(tally, items, c)
  {
    if |items| > 0 {
      var front := items[..|items| - 1];
      RankItemsStable(tally, front, c);
      InsertStable(tally, RankItems(tally, front), items[|items| - 1], c);
    }
  }

  // ---------------------------------------------------------------------------
  // Threshold and tie detection on the ranked counts.
  // ---------------------------------------------------------------------------

  /** `catObj.quota || 1`. */
  function EffectiveQuota(quota: nat): (q: nat)
    ensures q >= 1
    ensures quota >= 1 ==> q == quota
  {
    if quota == 0 then 1 else quota
  }

  /** The conditions on a vote count that the results card counts items by. */
  datatype Condition =
    | Above(t: nat)         // strictly above the threshold
    | TiedAt(t: nat)        // exactly at the threshold, with at least one vote
    | Crowned(t: nat)       // highlighted: at least one vote and at least the threshold
    | Voted                 // at least one vote
    | WinsUnder(v: Verdict) // gets the winner highlight under the verdict

  predicate Holds(p: Condition, c: nat) {
    match p
    case Above(t) => c > t
    case TiedAt(t) => c == t && c > 0
    case Crowned(t) => c > 0 && c >= t
    case Voted => c > 0
    case WinsUnder(v) => Classify(c, v) == Winner
  }

  /** How many counts satisfy `p`. */
  function CountIf(cs: seq<nat>, p: Condition): (n: nat)
    ensures n <= |cs|
  {
    if |cs| == 0 then 0
    else CountIf(cs[..|cs| - 1], p) + (if Holds(p, cs[|cs| - 1]) then 1 else 0)
  }

  lemma {:induction false} CountIfAppend(a: seq<nat>, b: seq<nat>, p: Condition)
    ensures CountIf(a + b, p) == CountIf(a, p) + CountIf(b, p)
  {
    if |b| == 0 {
      assert a + b == a;
    } else {
      assert (a + b)[..|a + b| - 1] == a + b[..|b| - 1];
      CountIfAppend(a, b[..|b| - 1], p);
    }
  }

  lemma {:induction false} CountIfNone(cs: seq<nat>, p: Condition)
    requires forall i :: 0 <= i < |cs| ==> !Holds(p, cs[i])
    ensures CountIf(cs, p) == 0
  {
    if |cs| > 0 {
      CountIfNone(cs[..|cs| - 1], p);
    }
  }

  lemma {:induction false} CountIfAll(cs: seq<nat>, p: Condition)
    requires forall i :: 0 <= i < |cs| ==> Holds(p, cs[i])
    ensures CountIf(cs, p) == |cs|
  {
    if |cs| > 0 {
      CountIfAll(cs[..|cs| - 1], p);
    }
  }

  /** Counting two exclusive conditions separately adds up to counting either. */
  lemma {:induction false} CountIfSplit(cs: seq<nat>, p: Condition, a: Condition, b: Condition)
    requires forall i :: 0 <= i < |cs| ==> (Holds(p, cs[i]) <==> Holds(a, cs[i]) || Holds(b, cs[i]))
    requires forall i :: 0 <= i < |cs| ==> !(Holds(a, cs[i]) && Holds(b, cs[i]))
    ensures CountIf(cs, p) == CountIf(cs, a) + CountIf(cs, b)
  {
    if |cs| > 0 {
      CountIfSplit(cs[..|cs| - 1], p, a, b);
    }
  }

  lemma {:induction false} CountIfSame(cs: seq<nat>, p: Condition, a: Condition)
    requires forall i :: 0 <= i < |cs| ==> (Holds(p, cs[i]) <==> Holds(a, cs[i]))
    ensures CountIf(cs, p) == CountIf(cs, a)
  {
    if |cs| > 0 {
      CountIfSame(cs[..|cs| - 1], p, a);
    }
  }

  /** `Math.min(quota - 1, voteCounts.length - 1)`. */
  function ThresholdIndex(q: nat, n: nat): (i: nat)
    requires q >= 1 && n >= 1
    ensures i < q && i < n
    ensures i == q - 1 || i == n - 1
  {
    if q - 1 <= n - 1 then q - 1 else n - 1
  }

  /** What `renderResults` works out for one category from its ranked counts. */
  datatype Verdict = Verdict(threshold: nat, tied: nat, above: nat, unresolvedTie: bool)

  function Judge(cs: seq<nat>, quota: nat): Verdict {
    var q := EffectiveQuota(quota);
    var t := if |cs| == 0 then 0 else cs[ThresholdIndex(q, |cs|)];
    var tied := if |cs| == 0 then 0 else CountIf(cs, TiedAt(t));
    var above := if |cs| == 0 then 0 else CountIf(cs, Above(t));
    Verdict(t, tied, above, above + tied > q)
  }

  /** The highlight an item gets: `winner-highlight`, `tie-highlight` or none. */
  datatype Standing = Winner | Tied | Unranked

  function Classify(count: nat, v: Verdict): Standing {
    if count > 0 && count >= v.threshold then
      if count == v.threshold && v.unresolvedTie then Tied else Winner
    else Unranked
  }

  /** One line of the results card. */
  datatype Line = Line(item: string, count: nat, standing: Standing)

  /**
   * The results card of one category: one line per item, in ranked order,
   * each highlighted as the verdict on the ranked counts says.
   */
  function RenderCategory(tally: Tally, cat: Category): (lines: seq<Line>)
    ensures |lines| == |cat.items|
    ensures LineItems(lines) == RankItems(tally, cat.items)
    ensures multiset(LineItems(lines)) == multiset(cat.items)
    ensures forall i :: 0 <= i < |lines| ==> lines[i].count == CountOf(tally, lines[i].item)
    ensures forall i, j :: 0 <= i < j < |lines| ==> lines[i].count >= lines[j].count
    ensures forall i :: 0 <= i < |lines| ==>
      lines[i].standing == Classify(lines[i].count, Judge(CountsOf(tally, RankItems(tally, cat.items)), cat.quota))
  {
    var ranked := RankItems(tally, cat.items);
    var v := Judge(CountsOf(tally, ranked), cat.quota);
    var lines := LinesOf(tally, ranked, v);
    assert LineItems(lines) == ranked;
    lines
  }

  /** One line per ranked item, with its count and the highlight the verdict gives it. */
  function LinesOf(tally: Tally, ranked: seq<string>, v: Verdict): (lines: seq<Line>)
    ensures |lines| == |ranked|
    ensures forall i :: 0 <= i < |ranked| ==> lines[i].item == ranked[i]
    ensures forall i :: 0 <= i < |ranked| ==> lines[i].count == CountOf(tally, ranked[i])
    ensures forall i :: 0 <= i < |ranked| ==> lines[i].standing == Classify(CountOf(tally, ranked[i]), v)
  {
    seq(|ranked|, i requires 0 <= i < |ranked| => Line(ranked[i], CountOf(tally, ranked[i]), Classify(CountOf(tally, ranked[i]), v)))
  }

  /** What the results panel shows for a sheet. */
  datatype View =
    | NoVotesYet                                       // only the "no votes have been cast" message
    | Cards(totalVotes: nat, cards: seq<seq<Line>>)    // the total and one results card per category

  /**
   * `renderResults` (public/app.js:516-585) for a sheet whose categories are
   * `cats` and whose results are `tally`, `totalVotes` and `votesList`: with
   * no stored vote the panel shows only the message and no category at all;
   * otherwise it shows one card per category, in menu order.
   */
  function RenderResults(tally: Tally, totalVotes: nat, votesList: seq<Vote>, cats: seq<Category>): (view: View)
    ensures view.NoVotesYet? <==> |votesList| == 0
    ensures view.Cards? ==> view.totalVotes == totalVotes && |view.cards| == |cats|
    ensures view.Cards? ==> forall k :: 0 <= k < |cats| ==> view.cards[k] == RenderCategory(tally, cats[k])
  {
    if |votesList| == 0 then NoVotesYet
    else Cards(totalVotes, seq(|cats|, k requires 0 <= k < |cats| => RenderCategory(tally, cats[k])))
  }

  /** Every line the panel shows lists an item of its own category with that item's count. */
  lemma ShownLinesBelong(tally: Tally, totalVotes: nat, votesList: seq<Vote>, cats: seq<Category>, k: nat, i: nat)
    requires RenderResults(tally, totalVotes, votesList, cats).Cards?
    requires k < |cats| && i < |RenderResults(tally, totalVotes, votesList, cats).cards[k]|
    ensures var line := RenderResults(tally, totalVotes, votesList, cats).cards[k][i];
      line.item in cats[k].items && line.count == CountOf(tally, line.item)
  {
    var lines := RenderCategory(tally, cats[k]);
    assert LineItems(lines)[i] == lines[i].item;
    assert lines[i].item in multiset(cats[k].items);
  }

  function LineItems(lines: seq<Line>): (r: seq<string>)
    ensures |r| == |lines|
    ensures forall i :: 0 <= i < |lines| ==> r[i] == lines[i].item
  {
    seq(|lines|, i requires 0 <= i < |lines| => lines[i].item)
  }

  // ---------------------------------------------------------------------------
  // Properties of the verdict.
  // ---------------------------------------------------------------------------

  /** On non-increasing counts everything before position `k` is at least `cs[k]`, everything after at most. */
  lemma AroundIndex(cs: seq<nat>, k: nat)
    requires NonIncreasing(cs) && k < |cs|
    ensures forall i :: 0 <= i <= k ==> cs[i] >= cs[k]
    ensures forall i :: k <= i < |cs| ==> cs[i] <= cs[k]
  {
  }

  /** Fewer items than the quota are ever strictly above the threshold. */
  lemma AboveBelowQuota(cs: seq<nat>, quota: nat)
    requires NonIncreasing(cs)
    ensures Judge(cs, quota).above < EffectiveQuota(quota)
  {
    if |cs| > 0 {
      var q := EffectiveQuota(quota);
      var k := ThresholdIndex(q, |cs|);
      var t := cs[k];
      assert cs == cs[..k] + cs[k..];
      CountIfAppend(cs[..k], cs[k..], Above(t));
      CountIfNone(cs[k..], Above(t));
    }
  }

  /** Highlighted items are those above the threshold plus those tied at it. */
  lemma CrownedSplit(cs: seq<nat>, t: nat)
    ensures CountIf(cs, Crowned(t)) == CountIf(cs, Above(t)) + CountIf(cs, TiedAt(t))
  {
    CountIfSplit(cs, Crowned(t), Above(t), TiedAt(t));
  }

  /** An unresolved tie always involves at least two items at the threshold. */
  lemma TieNeedsTwo(cs: seq<nat>, quota: nat)
    requires NonIncreasing(cs)
    requires Judge(cs, quota).unresolvedTie
    ensures Judge(cs, quota).tied >= 2
  {
    AboveBelowQuota(cs, quota);
  }

  /** When the first `k` counts all satisfy `p`, at least `k` do. */
  lemma PrefixCounted(cs: seq<nat>, k: nat, p: Condition)
    requires k <= |cs|
    requires forall i :: 0 <= i < k ==> Holds(p, cs[i])
    ensures CountIf(cs, p) >= k
  {
    assert cs == cs[..k] + cs[k..];
    CountIfAppend(cs[..k], cs[k..], p);
    CountIfAll(cs[..k], p);
  }

  /** When no count from position `k` on satisfies `p`, at most `k` do. */
  lemma SuffixUncounted(cs: seq<nat>, k: nat, p: Condition)
    requires k <= |cs|
    requires forall i :: k <= i < |cs| ==> !Holds(p, cs[i])
    ensures CountIf(cs, p) <= k
  {
    assert cs == cs[..k] + cs[k..];
    CountIfAppend(cs[..k], cs[k..], p);
    CountIfNone(cs[k..], p);
  }

  /**
   * Without an unresolved tie the quota is filled as far as votes allow:
   * exactly `min(quota, items with votes)` items are highlighted.
   */
  lemma FillsQuota(cs: seq<nat>, quota: nat)
    requires NonIncreasing(cs)
    requires !Judge(cs, quota).unresolvedTie
    ensures var q := EffectiveQuota(quota);
      CountIf(cs, Crowned(Judge(cs, quota).threshold)) == if q <= CountIf(cs, Voted) then q else CountIf(cs, Voted)
  {
    var q := EffectiveQuota(quota);
    if |cs| == 0 {
      assert CountIf(cs, Voted) == 0;
    } else {
      var k := ThresholdIndex(q, |cs|);
      var t := cs[k];
      CrownedSplit(cs, t);
      AroundIndex(cs, k);
      if t == 0 {
        CountIfSame(cs, Crowned(t), Voted);
        SuffixUncounted(cs, k, Voted);
      } else {
        PrefixCounted(cs, k + 1, Crowned(t));
        PrefixCounted(cs, k + 1, Voted);
        if k != q - 1 {
          SuffixUncounted(cs, k + 1, Crowned(t));
          SuffixUncounted(cs, k + 1, Voted);
        }
      }
    }
  }

  /**
   * With an unresolved tie the outright winners are exactly the items above
   * the threshold, the items with votes at the threshold are the tied ones,
   * and the number of winners is the verdict's `above`.
   */
  lemma WinnersUnderTie(cs: seq<nat>, quota: nat)
    requires Judge(cs, quota).unresolvedTie
    ensures var v := Judge(cs, quota);
      forall i :: 0 <= i < |cs| ==> (Classify(cs[i], v) == Winner <==> cs[i] > v.threshold)
    ensures var v := Judge(cs, quota);
      forall i :: 0 <= i < |cs| ==> (Classify(cs[i], v) == Tied <==> cs[i] > 0 && cs[i] == v.threshold)
    ensures var v := Judge(cs, quota);
      CountIf(cs, WinsUnder(v)) == v.above
  {
    var v := Judge(cs, quota);
    CountIfSame(cs, WinsUnder(v), Above(v.threshold));
  }

  /** Without an unresolved tie nothing is flagged as tied and every highlighted item is a winner. */
  lemma WinnersWithoutTie(cs: seq<nat>, quota: nat)
    requires NonIncreasing(cs)
    requires !Judge(cs, quota).unresolvedTie
    ensures var v := Judge(cs, quota);
      && CountIf(cs, WinsUnder(v)) == CountIf(cs, Crowned(v.threshold))
      && CountIf(cs, WinsUnder(v)) <= EffectiveQuota(quota)
  {
    var v := Judge(cs, quota);
    CountIfSame(cs, WinsUnder(v), Crowned(v.threshold));
    FillsQuota(cs, quota);
  }

  /**
   * Highlights respect the ranking: a winner never comes after a
   * non-winner, and a highlighted item never after an unhighlighted one.
   */
  lemma StandingsArePrefixes(cs: seq<nat>, quota: nat, i: nat, j: nat)
    requires NonIncreasing(cs)
    requires i < j < |cs|
    ensures var v := Judge(cs, quota);
      && (Classify(cs[j], v) == Winner ==> Classify(cs[i], v) == Winner)
      && (Classify(cs[j], v) != Unranked ==> Classify(cs[i], v) != Unranked)
  {
  }

  /** A category nobody voted in has no highlighted item. */
  lemma NoVotesNoHighlight(cs: seq<nat>, quota: nat)
    requires forall i :: 0 <= i < |cs| ==> cs[i] == 0
    ensures forall i :: 0 <= i < |cs| ==> Classify(cs[i], Judge(cs, quota)) == Unranked
  {
  }

  /** Quota 1 with counts 5, 5, 2: the two leaders are tied, the third is not highlighted. */
  lemma TieExample()
    ensures var v := Judge([5, 5, 2], 1);
      && v == Verdict(5, 2, 0, true)
      && Classify(5, v) == Tied && Classify(2, v) == Unranked
  {
    var cs: seq<nat> := [5, 5, 2];
    assert cs[..2] == [5, 5];
    assert cs[..2][..1] == [5];
    assert cs[..2][..1][..0] == [];
    assert CountIf(cs, TiedAt(5)) == 2;
    assert CountIf(cs, Above(5)) == 0;
  }

  /** Quota 2 with counts 5, 3, 3, 0: the leader wins outright and the two at 3 are tied for the last place. */
  lemma SplitExample()
    ensures var v := Judge([5, 3, 3, 0], 2);
      && v == Verdict(3, 2, 1, true)
      && Classify(5, v) == Winner && Classify(3, v) == Tied && Classify(0, v) == Unranked
  {
    var cs: seq<nat> := [5, 3, 3, 0];
    assert cs[..3] == [5, 3, 3];
    assert cs[..3][..2] == [5, 3];
    assert cs[..3][..2][..1] == [5];
    assert cs[..3][..2][..1][..0] == [];
    assert CountIf([5], TiedAt(3)) == 0 && CountIf([5], Above(3)) == 1;
    assert CountIf([5, 3], TiedAt(3)) == 1 && CountIf([5, 3], Above(3)) == 1;
    assert CountIf([5, 3, 3], TiedAt(3)) == 2 && CountIf([5, 3, 3], Above(3)) == 1;
    assert CountIf(cs, TiedAt(3)) == 2;
    assert CountIf(cs, Above(3)) == 1;
  }

  /** Quota 2 with counts 4, 3, 1 is not a tie: the two places go to the two leaders. */
  lemma NoTieExample()
    ensures var v := Judge([4, 3, 1], 2);
      && v == Verdict(3, 1, 1, false)
      && Classify(4, v) == Winner && Classify(3, v) == Winner && Classify(1, v) == Unranked
  {
    var cs: seq<nat> := [4, 3, 1];
    assert cs[..2] == [4, 3];
    assert cs[..2][..1] == [4];
    assert cs[..2][..1][..0] == [];
    assert CountIf(cs, TiedAt(3)) == 1;
    assert CountIf(cs, Above(3)) == 1;
  }

  // ---------------------------------------------------------------------------
  // The closed-event summary.
  // ---------------------------------------------------------------------------

  /** `sortedItems.filter(...)` of the closed-event summary: the finalists, in ranked order. */
  function Finalists(tally: Tally, cat: Category): seq<string> {
    var ranked := RankItems(tally, cat.items);
    var t := Judge(CountsOf(tally, ranked), cat.quota).threshold;
    KeepCrowned(tally, ranked, t)
  }

  function KeepCrowned(tally: Tally, s: seq<string>, t: nat): (r: seq<string>)
    ensures |r| <= |s|
  {
    if |s| == 0 then []
    else
      var c := CountOf(tally, s[|s| - 1]);
      KeepCrowned(tally, s[..|s| - 1], t) + (if c > 0 && c >= t then [s[|s| - 1]] else [])
  }

  lemma {:induction false} KeepCrownedCount(tally: Tally, s: seq<string>, t: nat)
    ensures |KeepCrowned(tally, s, t)| == CountIf(CountsOf(tally, s), Crowned(t))
    ensures forall x :: x in KeepCrowned(tally, s, t) <==> x in s && CountOf(tally, x) > 0 && CountOf(tally, x) >= t
  {
    if |s| > 0 {
      var front := s[..|s| - 1];
      KeepCrownedCount(tally, front, t);
      assert CountsOf(tally, s)[..|s| - 1] == CountsOf(tally, front);
      assert s == front + [s[|s| - 1]];
    }
  }

  /**
   * The closed summary applies the live page's rule: its finalists are
   * exactly the items the live page highlights, winners and tied alike.
   */
  lemma FinalistsAreHighlighted(tally: Tally, cat: Category, x: string)
    ensures var lines := RenderCategory(tally, cat);
      x in Finalists(tally, cat) <==> exists i :: 0 <= i < |lines| && lines[i].item == x && lines[i].standing != Unranked
  {
    var ranked := RankItems(tally, cat.items);
    var v := Judge(CountsOf(tally, ranked), cat.quota);
    assert Finalists(tally, cat) == KeepCrowned(tally, ranked, v.threshold);
    assert RenderCategory(tally, cat) == LinesOf(tally, ranked, v);
    KeptIffHighlighted(tally, ranked, v, x);
  }

  /** An item survives the summary's filter exactly when its line carries a highlight. */
  lemma KeptIffHighlighted(tally: Tally, ranked: seq<string>, v: Verdict, x: string)
    ensures var lines := LinesOf(tally, ranked, v);
      x in KeepCrowned(tally, ranked, v.threshold) <==> exists i :: 0 <= i < |lines| && lines[i].item == x && lines[i].standing != Unranked
  {
    var lines := LinesOf(tally, ranked, v);
    KeepCrownedCount(tally, ranked, v.threshold);
    if x in KeepCrowned(tally, ranked, v.threshold) {
      var i :| 0 <= i < |ranked| && ranked[i] == x;
      assert lines[i].item == x && lines[i].standing != Unranked;
    }
  }

  /** Without an unresolved tie the closed summary lists at most `quota` finalists, filling it as votes allow. */
  lemma FinalistsFillQuota(tally: Tally, cat: Category)
    requires !Judge(CountsOf(tally, RankItems(tally, cat.items)), cat.quota).unresolvedTie
    ensures var cs := CountsOf(tally, RankItems(tally, cat.items));
      var q := EffectiveQuota(cat.quota);
      |Finalists(tally, cat)| == if q <= CountIf(cs, Voted) then q else CountIf(cs, Voted)
  {
    var ranked := RankItems(tally, cat.items);
    var cs := CountsOf(tally, ranked);
    KeepCrownedCount(tally, ranked, Judge(cs, cat.quota).threshold);
    FillsQuota(cs, cat.quota);
  }
}

=== FILE: schema.dfy ===
/**
 * The records the server stores and the browser scripts exchange: events
 * with their menus and allow-lists, votes with their selections, and the
 * outcome of an API call.
 *
 * JavaScript objects keyed by sheet name keep their keys in insertion
 * order, and that order is observable (the first key is the default sheet),
 * so a menu is a sequence of named sheets rather than a map.
 */
module Schema {

  datatype Option<+T> = None | Some(value: T)

  datatype Status = Open | Closed

  /** One competing group of items; `quota` is how many items a voter may pick. */
  datatype Category = Category(name: string, quota: nat, items: seq<string>)

  /** One named page of the menu (one meal occasion). */
  datatype Sheet = Sheet(name: string, categories: seq<Category>)

  type Menu = seq<Sheet>

  /** A voter's picks in one category: `selections[category] = [item, ...]`. */
  datatype Selection = Selection(category: string, items: seq<string>)

  /** One stored ballot. `timestamp` is an opaque ISO string supplied by the clock. */
  datatype Vote = Vote(voterName: string, selections: seq<Selection>, timestamp: string)

  datatype Event = Event(
    id: string,
    topic: string,
    creatorName: string,
    status: Status,
    menu: Menu,
    allowedVoters: seq<string>,
    createdAt: string)

  /** `events.json`: event id to event. */
  type Events = map<string, Event>

  /** `votes.json`: event id to sheet name to the sheet's votes in storage order. */
  type VoteStore = map<string, map<string, seq<Vote>>>

  /** The HTTP outcome of a route, without the response body. */
  datatype Outcome = Ok | BadRequest | NotFound | Forbidden

  /** The outcome of a route together with the state it leaves behind. */
  datatype Step<+S> = Step(outcome: Outcome, state: S)

  function SheetNames(m: Menu): (r: seq<string>)
    ensures |r| == |m|
    ensures forall i :: 0 <= i < |m| ==> r[i] == m[i].name
  {
    seq(|m|, i requires 0 <= i < |m| => m[i].name)
  }

  /** `menuData[name]` is present (an empty category list is still truthy). */
  predicate HasSheet(m: Menu, name: string) {
    exists i :: 0 <= i < |m| && m[i].name == name
  }

  predicate UniqueSheetNames(m: Menu) {
    forall i, j :: 0 <= i < j < |m| ==> m[i].name != m[j].name
  }

  /** `menuData[name]`, or `None` when the key is absent. */
  function Categories(m: Menu, name: string): (r: Option<seq<Category>>)
    ensures r.Some? <==> HasSheet(m, name)
    ensures r.Some? ==> exists i :: 0 <= i < |m| && m[i].name == name && m[i].categories == r.value
  {
    if |m| == 0 then None
    else if m[0].name == name then Some(m[0].categories)
    else
      var r := Categories(m[1..], name);
      assert r.Some? ==> exists i :: 1 <= i < |m| && m[i].name == name && m[i].categories == r.value by {
        if r.Some? {
          var i :| 0 <= i < |m[1..]| && m[1..][i].name == name && m[1..][i].categories == r.value;
          assert m[i + 1] == m[1..][i];
        }
      }
      assert HasSheet(m[1..], name) ==> HasSheet(m, name) by {
        if HasSheet(m[1..], name) {
          var i :| 0 <= i < |m[1..]| && m[1..][i].name == name;
          assert m[i + 1] == m[1..][i];
        }
      }
      assert HasSheet(m, name) ==> HasSheet(m[1..], name) by {
        if HasSheet(m, name) {
          var i :| 0 <= i < |m| && m[i].name == name;
          assert m[1..][i - 1] == m[i];
        }
      }
      r
  }

  /** The votes stored for one sheet of one event, empty when nothing was stored. */
  function VotesAt(store: VoteStore, eventId: string, sheet: string): seq<Vote> {
    if eventId in store && sheet in store[eventId] then store[eventId][sheet] else []
  }
}

=== FILE: strings.dfy ===
/**
 * Text primitives the server and the two browser scripts lean on:
 * `String.prototype.trim`, `String.prototype.toLowerCase` and the
 * collation used to keep the allow-list sorted.
 *
 * JavaScript folds case and trims over all of Unicode; this model folds the
 * ASCII letters and trims a fixed set of space characters, which is enough
 * to state every property about names that the application relies on
 * (folding is idempotent, trimming is idempotent, collation is a total
 * preorder).
 */
module Strings {

  /** The characters `trim` removes (the common subset of ECMAScript white space and line terminators). */
  predicate IsSpace(c: char) {
    c == ' ' || c == '\t' || c == '\n' || c == '\r' || c == '\U{000B}' || c == '\U{000C}'
    || c == '\U{00A0}' || c == '\U{FEFF}' || c == '\U{2028}' || c == '\U{2029}'
  }

  predicate AllSpace(s: string) {
    forall i :: 0 <= i < |s| ==> IsSpace(s[i])
  }

  /** Drops leading white space: the result is a suffix of `s` that does not start with a space. */
  function TrimStart(s: string): (r: string)
    ensures |r| <= |s| && r == s[|s| - |r|..]
    ensures AllSpace(s[..|s| - |r|])
    ensures |r| == 0 || !IsSpace(r[0])
  {
    if |s| > 0 && IsSpace(s[0]) then
      var r := TrimStart(s[1..]);
      var k := |s| - |r|;
      assert r == s[k..] by {
        assert s[1..][k - 1..] == s[k..];
      }
      assert AllSpace(s[..k]) by {
        forall i | 0 <= i < k
          ensures IsSpace(s[..k][i])
        {
          if i > 0 {
            assert s[..k][i] == s[1..][..k - 1][i - 1];
          }
        }
      }
      r
    else s
  }

  /** Drops trailing white space: the result is a prefix of `s` that does not end with a space. */
  function TrimEnd(s: string): (r: string)
    ensures |r| <= |s| && r == s[..|r|]
    ensures AllSpace(s[|r|..])
    ensures |r| == 0 || !IsSpace(r[|r| - 1])
  {
    if |s| > 0 && IsSpace(s[|s| - 1]) then
      var r := TrimEnd(s[..|s| - 1]);
      assert r == s[..|r|] by {
        assert s[..|s| - 1][..|r|] == s[..|r|];
      }
      assert AllSpace(s[|r|..]) by {
        forall j | 0 <= j < |s| - |r|
          ensures IsSpace(s[|r|..][j])
        {
          if j < |s| - 1 - |r| {
            assert s[|r|..][j] == s[..|s| - 1][|r|..][j];
          }
        }
      }
      r
    else s
  }

  /** `s.trim()`. */
  function Trim(s: string): (r: string)
    ensures |r| == 0 || (!IsSpace(r[0]) && !IsSpace(r[|r| - 1]))
    ensures |r| <= |s|
  {
    TrimEnd(TrimStart(s))
  }

  lemma TrimStartFixed(s: string)
    requires |s| == 0 || !IsSpace(s[0])
    ensures TrimStart(s) == s
  {
  }

  lemma TrimEndFixed(s: string)
    requires |s| == 0 || !IsSpace(s[|s| - 1])
    ensures TrimEnd(s) == s
  {
  }

  /** Text with no space at either end is its own trim. */
  lemma TrimFixed(s: string)
    requires |s| == 0 || (!IsSpace(s[0]) && !IsSpace(s[|s| - 1]))
    ensures Trim(s) == s
  {
    TrimStartFixed(s);
    TrimEndFixed(s);
  }

  /** Trimming an already trimmed name changes nothing. */
  lemma TrimIdempotent(s: string)
    ensures Trim(Trim(s)) == Trim(s)
  {
    TrimFixed(Trim(s));
  }

  function LowerChar(c: char): char {
    if 'A' <= c <= 'Z' then (c as int + 32) as char else c
  }

  /** `s.toLowerCase()`, restricted to the ASCII letters. */
  function Lower(s: string): (r: string)
    ensures |r| == |s|
    ensures forall i :: 0 <= i < |s| ==> r[i] == LowerChar(s[i])
  {
    seq(|s|, i requires 0 <= i < |s| => LowerChar(s[i]))
  }

  /** Case folding is idempotent, so comparing folded names is an equivalence. */
  lemma LowerIdempotent(s: string)
    ensures Lower(Lower(s)) == Lower(s)
  {
  }

  /**
   * The collation of the allow-list: lexicographic order on code points.
   * (The deployed code uses `localeCompare(b, 'th')`; only its being a total
   * preorder matters to the model.)
   */
  predicate LexLe(a: string, b: string)
    decreases |a|
  {
    |a| == 0 || (|b| > 0 && (a[0] < b[0] || (a[0] == b[0] && LexLe(a[1..], b[1..]))))
  }

  lemma {:induction false} LexLeTotal(a: string, b: string)
    ensures LexLe(a, b) || LexLe(b, a)
    decreases |a|
  {
    if |a| > 0 && |b| > 0 && a[0] == b[0] {
      LexLeTotal(a[1..], b[1..]);
    }
  }

  lemma {:induction false} LexLeTransitive(a: string, b: string, c: string)
    requires LexLe(a, b) && LexLe(b, c)
    ensures LexLe(a, c)
    decreases |a|
  {
    if |a| > 0 && a[0] == b[0] && b[0] == c[0] {
      LexLeTransitive(a[1..], b[1..], c[1..]);
    }
  }
}

=== FILE: tally.dfy ===
/**
 * `GET /api/results/:eventId?sheet=…` (server.js:348-385): the stored votes
 * of one sheet are folded into a per-item count and a per-item list of
 * voter names. The count is keyed by item name alone, so an item name that
 * appears in two categories is counted once per category it was picked in.
 *
 * The reference meaning of the fold is the sequence of (voter, item) picks
 * the stored votes contain, in storage order: votes first, then the
 * categories of a vote in key order, then the items of a category.
 */
module Tally {
  import opened Schema

  /** One (voter, item) pair contributed by a stored vote. */
  datatype Pick = Pick(voter: string, item: string)

  function ItemPicks(voter: string, items: seq<string>): (r: seq<Pick>)
    ensures |r| == |items|
  {
    if |items| == 0 then []
    else ItemPicks(voter, items[..|items| - 1]) + [Pick(voter, items[|items| - 1])]
  }

  function SelectionPicks(voter: string, sels: seq<Selection>): seq<Pick> {
    if |sels| == 0 then []
    else SelectionPicks(voter, sels[..|sels| - 1]) + ItemPicks(voter, sels[|sels| - 1].items)
  }

  /** Every pick of every vote, in the order the route visits them. */
  function Picks(votes: seq<Vote>): seq<Pick> {
    if |votes| == 0 then []
    else
      var v := votes[|votes| - 1];
      Picks(votes[..|votes| - 1]) + SelectionPicks(v.voterName, v.selections)
  }

  /** How many picks name `item`. */
  function Count(ps: seq<Pick>, item: string): nat {
    if |ps| == 0 then 0
    else Count(ps[..|ps| - 1], item) + (if ps[|ps| - 1].item == item then 1 else 0)
  }

  /** The voters of the picks naming `item`, in pick order. */
  function VotersOf(ps: seq<Pick>, item: string): seq<string> {
    if |ps| == 0 then []
    else VotersOf(ps[..|ps| - 1], item) + (if ps[|ps| - 1].item == item then [ps[|ps| - 1].voter] else [])
  }

  lemma CountSnoc(ps: seq<Pick>, p: Pick, item: string)
    ensures Count(ps + [p], item) == Count(ps, item) + (if p.item == item then 1 else 0)
    ensures VotersOf(ps + [p], item) == VotersOf(ps, item) + (if p.item == item then [p.voter] else [])
  {
    assert (ps + [p])[..|ps|] == ps;
  }

  /** `votersByItem[item]` has one entry per counted pick. */
  lemma {:induction false} VotersOfLength(ps: seq<Pick>, item: string)
    ensures |VotersOf(ps, item)| == Count(ps, item)
  {
    if |ps| > 0 {
      VotersOfLength(ps[..|ps| - 1], item);
    }
  }

  /** `tally` and `votersByItem` describe exactly the picks `ps`. */
  ghost predicate Describes(tally: map<string, nat>, votersByItem: map<string, seq<string>>, ps: seq<Pick>) {
    && (forall item :: item in tally <==> Count(ps, item) > 0)
    && (forall item :: item in tally ==> tally[item] == Count(ps, item))
    && votersByItem.Keys == tally.Keys
    && (forall item :: item in votersByItem ==> votersByItem[item] == VotersOf(ps, item))
  }

  /** One pick adds one to its item's count and its voter to its item's list. */
  lemma DescribesSnoc(tally: map<string, nat>, votersByItem: map<string, seq<string>>, ps: seq<Pick>, p: Pick)
    requires Describes(tally, votersByItem, ps)
    ensures Describes(
      tally[p.item := (if p.item in tally then tally[p.item] else 0) + 1],
      votersByItem[p.item := (if p.item in votersByItem then votersByItem[p.item] else []) + [p.voter]],
      ps + [p])
  {
    var t := tally[p.item := (if p.item in tally then tally[p.item] else 0) + 1];
    var w := votersByItem[p.item := (if p.item in votersByItem then votersByItem[p.item] else []) + [p.voter]];
    forall x
      ensures x in t <==> Count(ps + [p], x) > 0
      ensures x in t ==> t[x] == Count(ps + [p], x)
      ensures x in w ==> w[x] == VotersOf(ps + [p], x)
    {
      CountSnoc(ps, p, x);
      VotersOfLength(ps, x);
    }
  }

  /** The innermost `items.forEach`: the picks of one selection list. */
  method TallyItems(tally0: map<string, nat>, voters0: map<string, seq<string>>, ghost done: seq<Pick>, voter: string, items: seq<string>)
    returns (tally: map<string, nat>, votersByItem: map<string, seq<string>>)
    requires Describes(tally0, voters0, done)
    ensures Describes(tally, votersByItem, done + ItemPicks(voter, items))
  {
    tally, votersByItem := tally0, voters0;
    var k := 0;
    assert done + ItemPicks(voter, items[..0]) == done;
    while k < |items|
      invariant 0 <= k <= |items|
      invariant Describes(tally, votersByItem, done + ItemPicks(voter, items[..k]))
    {
      var item := items[k];
      DescribesSnoc(tally, votersByItem, done + ItemPicks(voter, items[..k]), Pick(voter, item));
      tally := tally[item := (if item in tally then tally[item] else 0) + 1];
      votersByItem := votersByItem[item := (if item in votersByItem then votersByItem[item] else []) + [voter]];
      assert items[..k + 1][..k] == items[..k];
      assert done + ItemPicks(voter, items[..k + 1]) == done + ItemPicks(voter, items[..k]) + [Pick(voter, item)];
      k := k + 1;
    }
    assert items[..k] == items;
  }

  /** `Object.keys(vote.selections).forEach`: the picks of one vote. */
  method TallyVote(tally0: map<string, nat>, voters0: map<string, seq<string>>, ghost done: seq<Pick>, v: Vote)
    returns (tally: map<string, nat>, votersByItem: map<string, seq<string>>)
    requires Describes(tally0, voters0, done)
    ensures Describes(tally, votersByItem, done + SelectionPicks(v.voterName, v.selections))
  {
    tally, votersByItem := tally0, voters0;
    var j := 0;
    assert done + SelectionPicks(v.voterName, v.selections[..0]) == done;
    while j < |v.selections|
      invariant 0 <= j <= |v.selections|
      invariant Describes(tally, votersByItem, done + SelectionPicks(v.voterName, v.selections[..j]))
    {
      ghost var before := done + SelectionPicks(v.voterName, v.selections[..j]);
      tally, votersByItem := TallyItems(tally, votersByItem, before, v.voterName, v.selections[j].items);
      assert v.selections[..j + 1][..j] == v.selections[..j];
      assert done + SelectionPicks(v.voterName, v.selections[..j + 1]) == before + ItemPicks(v.voterName, v.selections[j].items);
      j := j + 1;
    }
    assert v.selections[..j] == v.selections;
  }

  /**
   * The nested `forEach` of the route: every pick of every vote adds one to
   * its item's count and the vote's voter name to its item's list; an item
   * never picked gets no entry.
   */
  method TallySheet(votes: seq<Vote>) returns (tally: map<string, nat>, votersByItem: map<string, seq<string>>)
    ensures forall item :: item in tally <==> Count(Picks(votes), item) > 0
    ensures forall item :: item in tally ==> tally[item] == Count(Picks(votes), item)
    ensures votersByItem.Keys == tally.Keys
    ensures forall item :: item in votersByItem ==> votersByItem[item] == VotersOf(Picks(votes), item)
  {
    tally := map[];
    votersByItem := map[];
    var i := 0;
    while i < |votes|
      invariant 0 <= i <= |votes|
      invariant Describes(tally, votersByItem, Picks(votes[..i]))
    {
      tally, votersByItem := TallyVote(tally, votersByItem, Picks(votes[..i]), votes[i]);
      assert votes[..i + 1][..i] == votes[..i];
      i := i + 1;
    }
    assert votes[..i] == votes;
  }

  /** The response body of the results route. */
  datatype Results = Results(totalVotes: nat, tally: map<string, nat>, votersByItem: map<string, seq<string>>, votesList: seq<Vote>)

  /**
   * The results route: an unknown event is `NotFound`; a missing sheet
   * parameter or a sheet the menu does not have is `BadRequest`; otherwise
   * the fold of the sheet's stored votes (none stored reads as no votes).
   */
  method GetResults(events: Events, store: VoteStore, eventId: string, sheet: string) returns (outcome: Outcome, res: Results)
    ensures eventId !in events ==> outcome == NotFound
    ensures eventId in events && (sheet == "" || !HasSheet(events[eventId].menu, sheet)) ==> outcome == BadRequest
    ensures outcome == Ok <==> eventId in events && sheet != "" && HasSheet(events[eventId].menu, sheet)
    ensures outcome == Ok ==> res.votesList == VotesAt(store, eventId, sheet)
    ensures outcome == Ok ==> res.totalVotes == |VotesAt(store, eventId, sheet)|
    ensures outcome == Ok ==> Describes(res.tally, res.votersByItem, Picks(VotesAt(store, eventId, sheet)))
  {
    res := Results(0, map[], map[], []);
    if eventId !in events {
      outcome := NotFound;
      return;
    }
    if sheet == "" || !HasSheet(events[eventId].menu, sheet) {
      outcome := BadRequest;
      return;
    }
    var votes := VotesAt(store, eventId, sheet);
    var tally, votersByItem := TallySheet(votes);
    outcome := Ok;
    res := Results(|votes|, tally, votersByItem, votes);
    assert Describes(res.tally, res.votersByItem, Picks(votes));
  }

  lemma {:induction false} CountAppend(a: seq<Pick>, b: seq<Pick>, item: string)
    ensures Count(a + b, item) == Count(a, item) + Count(b, item)
    decreases |b|
  {
    if |b| > 0 {
      var b' := b[..|b| - 1];
      assert a + b == (a + b') + [b[|b| - 1]];
      CountSnoc(a + b', b[|b| - 1], item);
      CountAppend(a, b', item);
      CountSnoc(b', b[|b| - 1], item);
      assert b == b' + [b[|b| - 1]];
    } else {
      assert a + b == a;
    }
  }

  /** How many times `item` occurs in one selection list. */
  function Occurrences(items: seq<string>, item: string): nat {
    multiset(items)[item]
  }

  lemma {:induction false} ItemPicksCount(voter: string, items: seq<string>, item: string)
    ensures Count(ItemPicks(voter, items), item) == Occurrences(items, item)
  {
    if |items| > 0 {
      var front := items[..|items| - 1];
      ItemPicksCount(voter, front, item);
      CountSnoc(ItemPicks(voter, front), Pick(voter, items[|items| - 1]), item);
      assert items == front + [items[|items| - 1]];
    }
  }

  /** The number of (vote, category) selection lists that contain `item`. */
  function ListsContaining(votes: seq<Vote>, item: string): nat {
    if |votes| == 0 then 0
    else ListsContaining(votes[..|votes| - 1], item) + ListsIn(votes[|votes| - 1].selections, item)
  }

  function ListsIn(sels: seq<Selection>, item: string): nat {
    if |sels| == 0 then 0
    else ListsIn(sels[..|sels| - 1], item) + (if item in sels[|sels| - 1].items then 1 else 0)
  }

  /** No selection list of any vote names the same item twice (true of every ballot the form sends). */
  predicate NoRepeatedPicks(votes: seq<Vote>) {
    forall v, s :: v in votes && s in v.selections ==> forall a, b :: 0 <= a < b < |s.items| ==> s.items[a] != s.items[b]
  }

  lemma DistinctOccurrences(items: seq<string>, item: string)
    requires forall a, b :: 0 <= a < b < |items| ==> items[a] != items[b]
    ensures Occurrences(items, item) == if item in items then 1 else 0
    decreases |items|
  {
    if |items| > 0 {
      var front := items[..|items| - 1];
      DistinctOccurrences(front, item);
      assert items == front + [items[|items| - 1]];
    }
  }

  lemma {:induction false} SelectionPicksCount(voter: string, sels: seq<Selection>, item: string)
    requires forall s :: s in sels ==> forall a, b :: 0 <= a < b < |s.items| ==> s.items[a] != s.items[b]
    ensures Count(SelectionPicks(voter, sels), item) == ListsIn(sels, item)
  {
    if |sels| > 0 {
      var front := sels[..|sels| - 1];
      var last := sels[|sels| - 1];
      assert forall s :: s in front ==> s in sels;
      SelectionPicksCount(voter, front, item);
      CountAppend(SelectionPicks(voter, front), ItemPicks(voter, last.items), item);
      ItemPicksCount(voter, last.items, item);
      DistinctOccurrences(last.items, item);
    }
  }

  /**
   * The count the route reports for an item is the number of (vote,
   * category) selection lists containing it, when no list repeats an item.
   */
  lemma {:induction false} TallyCountsLists(votes: seq<Vote>, item: string)
    requires NoRepeatedPicks(votes)
    ensures Count(Picks(votes), item) == ListsContaining(votes, item)
  {
    if |votes| > 0 {
      var front := votes[..|votes| - 1];
      var last := votes[|votes| - 1];
      assert forall v :: v in front ==> v in votes;
      TallyCountsLists(front, item);
      CountAppend(Picks(front), SelectionPicks(last.voterName, last.selections), item);
      SelectionPicksCount(last.voterName, last.selections, item);
    }
  }

  lemma PicksSnoc(votes: seq<Vote>, v: Vote)
    ensures Picks(votes + [v]) == Picks(votes) + SelectionPicks(v.voterName, v.selections)
  {
    assert (votes + [v])[..|votes|] == votes;
  }

  lemma OneSelection(voter: string, category: string, items: seq<string>)
    ensures SelectionPicks(voter, [Selection(category, items)]) == ItemPicks(voter, items)
  {
    assert [Selection(category, items)][..0] == [];
  }

  /** The count and the voter list of an item over four picks. */
  lemma FourPicks(p1: Pick, p2: Pick, p3: Pick, p4: Pick, item: string)
    ensures Count([p1, p2, p3, p4], item) == Count([p1, p2, p3], item) + (if p4.item == item then 1 else 0)
    ensures Count([p1, p2, p3], item) == Count([p1, p2], item) + (if p3.item == item then 1 else 0)
    ensures Count([p1, p2], item) == Count([p1], item) + (if p2.item == item then 1 else 0)
    ensures Count([p1], item) == if p1.item == item then 1 else 0
    ensures VotersOf([p1, p2, p3, p4], item) == VotersOf([p1, p2, p3], item) + (if p4.item == item then [p4.voter] else [])
    ensures VotersOf([p1, p2, p3], item) == VotersOf([p1, p2], item) + (if p3.item == item then [p3.voter] else [])
    ensures VotersOf([p1, p2], item) == VotersOf([p1], item) + (if p2.item == item then [p2.voter] else [])
    ensures VotersOf([p1], item) == if p1.item == item then [p1.voter] else []
  {
    assert [p1, p2, p3, p4][..3] == [p1, p2, p3];
    assert [p1, p2, p3][..2] == [p1, p2];
    assert [p1, p2][..1] == [p1];
    assert [p1][..0] == [];
  }

  /** The picks of three ballots, in the order the route visits them. */
  lemma ExamplePicks(ann: string, bob: string, cid: string, x: string, y: string, cat: string)
    ensures Picks([
        Vote(ann, [Selection(cat, [x])], "t1"),
        Vote(bob, [Selection(cat, [x])], "t2"),
        Vote(cid, [Selection(cat, [x, y])], "t3")])
      == [Pick(ann, x), Pick(bob, x), Pick(cid, x), Pick(cid, y)]
  {
    var a := Vote(ann, [Selection(cat, [x])], "t1");
    var b := Vote(bob, [Selection(cat, [x])], "t2");
    var c := Vote(cid, [Selection(cat, [x, y])], "t3");
    OneSelection(ann, cat, [x]);
    OneSelection(bob, cat, [x]);
    OneSelection(cid, cat, [x, y]);
    assert [x][..0] == [];
    assert [x, y][..1] == [x];
    PicksSnoc([], a);
    PicksSnoc([a], b);
    PicksSnoc([a, b], c);
    assert [] + [a] == [a] && [a] + [b] == [a, b] && [a, b] + [c] == [a, b, c];
  }

  /**
   * Three ballots pick `x` and one of them also `y`: `x` counts 3 with its
   * voters in storage order, `y` counts 1, and `z` is never counted.
   */
  lemma TallyExample(ann: string, bob: string, cid: string, x: string, y: string, z: string, cat: string)
    requires x != y && x != z && y != z
    ensures var votes := [
        Vote(ann, [Selection(cat, [x])], "t1"),
        Vote(bob, [Selection(cat, [x])], "t2"),
        Vote(cid, [Selection(cat, [x, y])], "t3")];
      var ps := Picks(votes);
      && Count(ps, x) == 3 && VotersOf(ps, x) == [ann, bob, cid]
      && Count(ps, y) == 1 && VotersOf(ps, y) == [cid]
      && Count(ps, z) == 0
  {
    ExamplePicks(ann, bob, cid, x, y, cat);
    var p1, p2, p3, p4 := Pick(ann, x), Pick(bob, x), Pick(cid, x), Pick(cid, y);
    var ps := [p1, p2, p3, p4];
    FourPicks(p1, p2, p3, p4, x);
    assert Count(ps, x) == 3 && VotersOf(ps, x) == [ann, bob, cid];
    FourPicks(p1, p2, p3, p4, y);
    assert Count(ps, y) == 1 && VotersOf(ps, y) == [cid];
    FourPicks(p1, p2, p3, p4, z);
    assert Count(ps, z) == 0;
  }
}

=== FILE: voters.dfy ===
/**
 * The per-event allow-list of voter names (server.js:411-450). Names are
 * compared case-insensitively after trimming the request's name; the list
 * is kept sorted by the collation after every addition.
 */
module Voters {
  import opened Strings
  import opened Schema

  /** The identity a request's name is matched by: trimmed, then case-folded. */
  function VoterKey(name: string): string {
    Lower(Trim(name))
  }

  /** `voters.some(u => u.toLowerCase() === name.trim().toLowerCase())`. */
  predicate Allowed(voters: seq<string>, name: string) {
    exists u :: u in voters && Lower(u) == VoterKey(name)
  }

  /** No two names on the list are equal once case-folded. */
  predicate NoCaseDuplicates(s: seq<string>) {
    DistinctUnder(s, Lower)
  }

  predicate Sorted(s: seq<string>) {
    forall i, j :: 0 <= i < j < |s| ==> LexLe(s[i], s[j])
  }

  /** Places `x` after every name of the sorted list `s` that collates no later than it. */
  function InsertSorted(s: seq<string>, x: string): (r: seq<string>)
    requires Sorted(s)
    ensures Sorted(r)
    ensures multiset(r) == multiset(s) + multiset{x}
  {
    if |s| == 0 then [x]
    else if LexLe(s[0], x) then
      var rest := InsertSorted(s[1..], x);
      assert s == [s[0]] + s[1..];
      forall k | 0 <= k < |rest|
        ensures LexLe(s[0], rest[k])
      {
        assert rest[k] in multiset(rest);
        if rest[k] != x {
          assert rest[k] in s[1..];
        }
      }
      [s[0]] + rest
    else
      LexLeTotal(s[0], x);
      forall j | 0 <= j < |s|
        ensures LexLe(x, s[j])
      {
        if j > 0 {
          LexLeTransitive(x, s[0], s[j]);
        }
      }
      [x] + s
  }

  /** `list.sort((a, b) => a.localeCompare(b, 'th'))`: a sorted permutation. */
  function SortNames(s: seq<string>): (r: seq<string>)
    ensures Sorted(r)
    ensures multiset(r) == multiset(s)
  {
    if |s| == 0 then []
    else
      assert s == s[..|s| - 1] + [s[|s| - 1]];
      InsertSorted(SortNames(s[..|s| - 1]), s[|s| - 1])
  }

  /** Every name of the merged list comes from the list or is the inserted name. */
  lemma InsertSortedMembers(s: seq<string>, x: string, k: int)
    requires Sorted(s) && 0 <= k < |InsertSorted(s, x)|
    ensures InsertSorted(s, x)[k] == x || InsertSorted(s, x)[k] in s
  {
    var r := InsertSorted(s, x);
    assert r[k] in multiset(r);
  }

  /** Names are pairwise distinct under the key `f`. */
  predicate DistinctUnder(s: seq<string>, f: string -> string) {
    forall i, j :: 0 <= i < j < |s| ==> f(s[i]) != f(s[j])
  }

  /** Putting a name in front of a distinct list keeps it distinct when its key is new. */
  lemma DistinctCons(h: string, t: seq<string>, f: string -> string)
    requires DistinctUnder(t, f)
    requires forall y :: y in t ==> f(y) != f(h)
    ensures DistinctUnder([h] + t, f)
  {
    var r := [h] + t;
    forall i, j | 0 <= i < j < |r|
      ensures f(r[i]) != f(r[j])
    {
      assert r[j] == t[j - 1];
      if i > 0 {
        assert r[i] == t[i - 1];
      }
    }
  }

  lemma {:induction false} InsertKeepsDistinct(s: seq<string>, x: string, f: string -> string)
    requires Sorted(s) && DistinctUnder(s, f)
    requires forall y :: y in s ==> f(y) != f(x)
    ensures DistinctUnder(InsertSorted(s, x), f)
    decreases |s|
  {
    if |s| == 0 {
    } else if LexLe(s[0], x) {
      var tail := s[1..];
      var rest := InsertSorted(tail, x);
      assert s == [s[0]] + tail;
      assert forall y :: y in tail ==> y in s;
      assert Sorted(tail) by {
        forall i, j | 0 <= i < j < |tail| ensures LexLe(tail[i], tail[j]) {
          assert tail[i] == s[i + 1] && tail[j] == s[j + 1];
        }
      }
      assert DistinctUnder(tail, f) by {
        forall i, j | 0 <= i < j < |tail| ensures f(tail[i]) != f(tail[j]) {
          assert tail[i] == s[i + 1] && tail[j] == s[j + 1];
        }
      }
      InsertKeepsDistinct(tail, x, f);
      forall k | 0 <= k < |rest|
        ensures f(rest[k]) != f(s[0])
      {
        InsertSortedMembers(tail, x, k);
        if rest[k] != x {
          var m :| 0 <= m < |tail| && tail[m] == rest[k];
          assert s[m + 1] == rest[k];
        }
      }
      DistinctCons(s[0], rest, f);
      assert InsertSorted(s, x) == [s[0]] + rest;
    } else {
      DistinctCons(x, s, f);
      assert InsertSorted(s, x) == [x] + s;
    }
  }

  /** `name` is missing: the route rejects it before looking the event up. */
  predicate MissingName(name: string) {
    name == ""
  }

  /**
   * `POST /api/events/:eventId/voters` (server.js:411-430). A name already on
   * the list (in any letter case) is refused and nothing changes; otherwise
   * the trimmed name is added and the list sorted.
   */
  function AddVoter(events: Events, eventId: string, name: string): (r: Step<Events>)
    ensures r.outcome != Ok ==> r.state == events
    ensures MissingName(name) ==> r.outcome == BadRequest
    ensures !MissingName(name) && eventId !in events ==> r.outcome == NotFound
    ensures !MissingName(name) && eventId in events && Allowed(events[eventId].allowedVoters, name) ==> r.outcome == BadRequest
    ensures r.outcome == Ok <==> !MissingName(name) && eventId in events && !Allowed(events[eventId].allowedVoters, name)
    ensures r.outcome == Ok ==> r.state.Keys == events.Keys
    ensures r.outcome == Ok ==> forall e :: e in events && e != eventId ==> r.state[e] == events[e]
    ensures r.outcome == Ok ==> r.state[eventId] == events[eventId].(allowedVoters := r.state[eventId].allowedVoters)
    ensures r.outcome == Ok ==> Sorted(r.state[eventId].allowedVoters)
    ensures r.outcome == Ok ==> multiset(r.state[eventId].allowedVoters) == multiset(events[eventId].allowedVoters) + multiset{Trim(name)}
  {
    if MissingName(name) then Step(BadRequest, events)
    else if eventId !in events then Step(NotFound, events)
    else
      var ev := events[eventId];
      if Allowed(ev.allowedVoters, name) then Step(BadRequest, events)
      else Step(Ok, events[eventId := ev.(allowedVoters := SortNames(ev.allowedVoters + [Trim(name)]))])
  }

  /** Adding a voter never creates two case-insensitively equal names on the list. */
  lemma AddVoterKeepsNamesDistinct(events: Events, eventId: string, name: string)
    requires eventId in events && NoCaseDuplicates(events[eventId].allowedVoters)
    ensures var r := AddVoter(events, eventId, name);
      NoCaseDuplicates(r.state[eventId].allowedVoters)
  {
    var list := events[eventId].allowedVoters;
    if AddVoter(events, eventId, name).outcome == Ok {
      SortKeepsNoCaseDuplicates(list);
      var sorted := SortNames(list);
      TrimIdempotent(name);
      forall y | y in sorted
        ensures Lower(y) != Lower(Trim(name))
      {
        assert y in multiset(list);
      }
      var whole := list + [Trim(name)];
      assert whole[..|whole| - 1] == list;
      InsertKeepsDistinct(sorted, Trim(name), Lower);
    }
  }

  lemma {:induction false} SortKeepsNoCaseDuplicates(s: seq<string>)
    requires NoCaseDuplicates(s)
    ensures NoCaseDuplicates(SortNames(s))
  {
    if |s| > 0 {
      var front := s[..|s| - 1];
      SortKeepsNoCaseDuplicates(front);
      forall y | y in SortNames(front)
        ensures Lower(y) != Lower(s[|s| - 1])
      {
        assert y in multiset(front);
        var j :| 0 <= j < |front| && front[j] == y;
        assert s[j] == y;
      }
      InsertKeepsDistinct(SortNames(front), s[|s| - 1], Lower);
    }
  }

  /** `list` with an order-preserving selection of its elements. */
  predicate Subsequence(a: seq<string>, b: seq<string>)
    decreases |b|
  {
    |a| == 0 || (|b| > 0 && ((a[0] == b[0] && Subsequence(a[1..], b[1..])) || Subsequence(a, b[1..])))
  }

  /** `list.filter(u => u.toLowerCase() !== key)`: the names whose folded form is not `key`, in list order. */
  function RemoveMatches(list: seq<string>, key: string): (r: seq<string>)
    ensures Subsequence(r, list)
    ensures forall u :: u in r ==> Lower(u) != key
    ensures forall u :: u in list && Lower(u) != key ==> u in r
    ensures |r| <= |list|
    ensures |r| == |list| <==> forall u :: u in list ==> Lower(u) != key
  {
    if |list| == 0 then []
    else
      var rest := RemoveMatches(list[1..], key);
      assert list == [list[0]] + list[1..];
      if Lower(list[0]) == key then rest
      else [list[0]] + rest
  }

  /** The names that remain keep their multiplicity; the matching ones are all gone. */
  lemma {:induction false} RemoveMatchesCounts(list: seq<string>, key: string, u: string)
    ensures multiset(RemoveMatches(list, key))[u] == if Lower(u) == key then 0 else multiset(list)[u]
  {
    if |list| > 0 {
      RemoveMatchesCounts(list[1..], key, u);
      assert list == [list[0]] + list[1..];
    }
  }

  lemma {:induction false} SubsequenceSorted(a: seq<string>, b: seq<string>)
    requires Subsequence(a, b) && Sorted(b)
    ensures Sorted(a)
    decreases |b|
  {
    if |a| > 0 {
      assert forall i, j :: 0 <= i < j < |b[1..]| ==> b[1..][i] == b[i + 1] && b[1..][j] == b[j + 1];
      if a[0] == b[0] && Subsequence(a[1..], b[1..]) {
        SubsequenceSorted(a[1..], b[1..]);
        SubsequenceElements(a[1..], b[1..]);
        forall j | 0 < j < |a|
          ensures LexLe(a[0], a[j])
        {
          assert a[j] == a[1..][j - 1];
          assert a[j] in b[1..];
          var k :| 0 <= k < |b[1..]| && b[1..][k] == a[j];
          assert b[k + 1] == a[j];
        }
      } else {
        SubsequenceSorted(a, b[1..]);
      }
    }
  }

  lemma {:induction false} SubsequenceElements(a: seq<string>, b: seq<string>)
    requires Subsequence(a, b)
    ensures forall x :: x in a ==> x in b
    decreases |b|
  {
    if |a| > 0 {
      if a[0] == b[0] && Subsequence(a[1..], b[1..]) {
        SubsequenceElements(a[1..], b[1..]);
        assert a == [a[0]] + a[1..];
      } else {
        SubsequenceElements(a, b[1..]);
      }
      assert b == [b[0]] + b[1..];
    }
  }

  /**
   * `DELETE /api/events/:eventId/voters/:name` (server.js:432-450): every
   * case-insensitive match goes; when nothing matched the route answers
   * not-found and saves nothing.
   */
  function RemoveVoter(events: Events, eventId: string, name: string): (r: Step<Events>)
    ensures r.outcome != Ok ==> r.state == events
    ensures eventId !in events ==> r.outcome == NotFound
    ensures r.outcome == Ok <==> eventId in events && Allowed(events[eventId].allowedVoters, name)
    ensures r.outcome == Ok ==> r.state.Keys == events.Keys
    ensures r.outcome == Ok ==> forall e :: e in events && e != eventId ==> r.state[e] == events[e]
    ensures r.outcome == Ok ==> r.state[eventId] == events[eventId].(allowedVoters := r.state[eventId].allowedVoters)
    ensures r.outcome == Ok ==> !Allowed(r.state[eventId].allowedVoters, name)
    ensures r.outcome == Ok ==> Subsequence(r.state[eventId].allowedVoters, events[eventId].allowedVoters)
    ensures r.outcome == Ok ==> forall u :: u in events[eventId].allowedVoters && Lower(u) != VoterKey(name) ==> u in r.state[eventId].allowedVoters
    ensures r.outcome == Ok ==> forall u ::
      multiset(r.state[eventId].allowedVoters)[u] == if Lower(u) == VoterKey(name) then 0 else multiset(events[eventId].allowedVoters)[u]
  {
    if eventId !in events then Step(NotFound, events)
    else
      var ev := events[eventId];
      var kept := RemoveMatches(ev.allowedVoters, VoterKey(name));
      assert forall u :: multiset(kept)[u] == if Lower(u) == VoterKey(name) then 0 else multiset(ev.allowedVoters)[u] by {
        forall u
          ensures multiset(kept)[u] == if Lower(u) == VoterKey(name) then 0 else multiset(ev.allowedVoters)[u]
        {
          RemoveMatchesCounts(ev.allowedVoters, VoterKey(name), u);
        }
      }
      if |kept| == |ev.allowedVoters| then Step(NotFound, events)
      else Step(Ok, events[eventId := ev.(allowedVoters := kept)])
  }

  /** Removing voters keeps a sorted list sorted. */
  lemma RemoveVoterKeepsSorted(events: Events, eventId: string, name: string)
    requires eventId in events && Sorted(events[eventId].allowedVoters)
    ensures Sorted(RemoveVoter(events, eventId, name).state[eventId].allowedVoters)
  {
    var r := RemoveVoter(events, eventId, name);
    if r.outcome == Ok {
      SubsequenceSorted(r.state[eventId].allowedVoters, events[eventId].allowedVoters);
    }
  }

  /** Filtering out a key that only the inserted name carries restores the original names. */
  lemma RemoveAfterInsert(before: seq<string>, list: seq<string>, t: string, key: string)
    requires multiset(list) == multiset(before) + multiset{t}
    requires Lower(t) == key
    requires forall u :: u in before ==> Lower(u) != key
    ensures multiset(RemoveMatches(list, key)) == multiset(before)
  {
    forall u
      ensures multiset(RemoveMatches(list, key))[u] == multiset(before)[u]
    {
      RemoveMatchesCounts(list, key, u);
      if Lower(u) == key {
        assert u !in before;
      }
    }
  }

  /**
   * Adding a voter and then removing the same name (in any letter case)
   * succeeds and leaves the same names on the list as before the addition.
   */
  lemma AddThenRemove(events: Events, eventId: string, name: string, again: string)
    requires AddVoter(events, eventId, name).outcome == Ok
    requires VoterKey(again) == VoterKey(name)
    ensures var added := AddVoter(events, eventId, name).state;
      var removed := RemoveVoter(added, eventId, again);
      && removed.outcome == Ok
      && multiset(removed.state[eventId].allowedVoters) == multiset(events[eventId].allowedVoters)
  {
    var added := AddVoter(events, eventId, name).state;
    var before := events[eventId].allowedVoters;
    var list := added[eventId].allowedVoters;
    assert Trim(name) in multiset(list);
    assert Allowed(list, again);
    RemoveAfterInsert(before, list, Trim(name), VoterKey(name));
  }
}

=== FILE: votes.dfy ===
/**
 * The vote store behind `POST /api/vote` and `GET /api/votes/:eventId/:name`
 * (server.js). A vote is keyed by (event, sheet, case-folded trimmed voter
 * name); a resubmission replaces the earlier vote in place, a first
 * submission is appended. The server checks nothing about the selections
 * beyond their being present: quotas are enforced only by the ballot form.
 */
module Votes {
  import opened Strings
  import opened Schema
  import opened Voters

  /**
   * The body of `POST /api/vote`. A field that is absent is modelled as the
   * empty string and an absent selections object as an empty sequence: the
   * route treats both alike (they are falsy, or have no keys).
   */
  datatype VoteRequest = VoteRequest(eventId: string, sheetName: string, voterName: string, selections: seq<Selection>)

  /** The first guard of the route: a parameter is missing or `selections` has no key. */
  predicate MissingParams(q: VoteRequest) {
    q.eventId == "" || q.sheetName == "" || q.voterName == "" || |q.selections| == 0
  }

  /** A stored vote belongs to the voter the request names. */
  predicate IsVoter(v: Vote, name: string) {
    Lower(v.voterName) == VoterKey(name)
  }

  /** Every guard of the route passes. */
  predicate Admissible(events: Events, q: VoteRequest) {
    && !MissingParams(q)
    && q.eventId in events
    && events[q.eventId].status == Open
    && HasSheet(events[q.eventId].menu, q.sheetName)
    && Allowed(events[q.eventId].allowedVoters, q.voterName)
  }

  /** The voter names of a sheet's votes, in storage order. */
  function VoterNames(votes: seq<Vote>): (r: seq<string>)
    ensures |r| == |votes|
    ensures forall i :: 0 <= i < |votes| ==> r[i] == votes[i].voterName
  {
    seq(|votes|, i requires 0 <= i < |votes| => votes[i].voterName)
  }

  /** No two votes of a sheet share a case-folded voter name. */
  predicate UniqueVoters(votes: seq<Vote>) {
    NoCaseDuplicates(VoterNames(votes))
  }

  /** `votes.findIndex(v => v.voterName.toLowerCase() === name.trim().toLowerCase())`. */
  function FindVoter(votes: seq<Vote>, name: string): (r: int)
    ensures -1 <= r < |votes|
    ensures r >= 0 ==> IsVoter(votes[r], name)
    ensures forall k :: 0 <= k < |votes| && (r < 0 || k < r) ==> !IsVoter(votes[k], name)
  {
    if |votes| == 0 then -1
    else if IsVoter(votes[0], name) then 0
    else
      var r := FindVoter(votes[1..], name);
      assert forall k :: 1 <= k < |votes| ==> votes[k] == votes[1..][k - 1];
      if r < 0 then -1 else r + 1
  }

  /** `FindVoter` is pinned down by its contract: the first matching index, or -1. */
  lemma FindVoterIs(votes: seq<Vote>, name: string, i: int)
    requires -1 <= i < |votes|
    requires i >= 0 ==> IsVoter(votes[i], name)
    requires forall k :: 0 <= k < |votes| && (i < 0 || k < i) ==> !IsVoter(votes[k], name)
    ensures FindVoter(votes, name) == i
  {
  }

  /**
   * Records `v` as the vote of the voter `name`: the first earlier vote of
   * that voter is overwritten at its own index, otherwise `v` is appended.
   */
  function Upsert(votes: seq<Vote>, name: string, v: Vote): (r: seq<Vote>)
    requires IsVoter(v, name)
    ensures |votes| <= |r| <= |votes| + 1
    ensures |r| == |votes| + 1 <==> forall k :: 0 <= k < |votes| ==> !IsVoter(votes[k], name)
    ensures FindVoter(votes, name) >= 0 ==> FindVoter(r, name) == FindVoter(votes, name)
    ensures FindVoter(r, name) >= 0 && r[FindVoter(r, name)] == v
    ensures forall k :: 0 <= k < |votes| && k != FindVoter(votes, name) ==> r[k] == votes[k]
  {
    var i := FindVoter(votes, name);
    if i >= 0 then
      var r := votes[i := v];
      FindVoterIs(r, name, i);
      r
    else
      var r := votes + [v];
      FindVoterIs(r, name, |votes|);
      r
  }

  /** The vote map with the list of sheet `s` of event `e` set to `votes`, creating the entries as the route does. */
  function Put(store: VoteStore, e: string, s: string, votes: seq<Vote>): (r: VoteStore)
    ensures r.Keys == store.Keys + {e}
    ensures VotesAt(r, e, s) == votes
    ensures forall e2, s2 :: e2 != e || s2 != s ==> VotesAt(r, e2, s2) == VotesAt(store, e2, s2)
  {
    var sheets := if e in store then store[e] else map[];
    store[e := sheets[s := votes]]
  }

  /** Writing a sheet's list twice keeps only the second write. */
  lemma PutTwice(store: VoteStore, e: string, s: string, a: seq<Vote>, b: seq<Vote>)
    ensures Put(Put(store, e, s, a), e, s, b) == Put(store, e, s, b)
  {
    var sheets := if e in store then store[e] else map[];
    assert Put(store, e, s, a)[e] == sheets[s := a];
    assert sheets[s := a][s := b] == sheets[s := b];
  }

  /** The vote a successful request stores: the trimmed name as typed and the selections as sent. */
  function NewVote(q: VoteRequest, now: string): (v: Vote)
    ensures IsVoter(v, q.voterName)
  {
    TrimIdempotent(q.voterName);
    Vote(Trim(q.voterName), q.selections, now)
  }

  /**
   * `POST /api/vote` (server.js:300-346). `now` stands for the clock reading
   * stored as the vote's timestamp.
   */
  function SubmitVote(events: Events, store: VoteStore, q: VoteRequest, now: string): (r: Step<VoteStore>)
    ensures r.outcome == Ok <==> Admissible(events, q)
    ensures r.outcome != Ok ==> r.state == store
    ensures MissingParams(q) ==> r.outcome == BadRequest
    ensures !MissingParams(q) && q.eventId !in events ==> r.outcome == NotFound
    ensures !MissingParams(q) && q.eventId in events && events[q.eventId].status == Closed ==> r.outcome == Forbidden
    ensures (!MissingParams(q) && q.eventId in events && events[q.eventId].status == Open
             && !HasSheet(events[q.eventId].menu, q.sheetName)) ==> r.outcome == BadRequest
    ensures (!MissingParams(q) && q.eventId in events && events[q.eventId].status == Open
             && HasSheet(events[q.eventId].menu, q.sheetName)
             && !Allowed(events[q.eventId].allowedVoters, q.voterName)) ==> r.outcome == Forbidden
    // A successful vote touches one sheet's list and nothing else.
    ensures r.outcome == Ok ==> r.state.Keys == store.Keys + {q.eventId}
    ensures r.outcome == Ok ==> forall e, s :: e != q.eventId || s != q.sheetName ==> VotesAt(r.state, e, s) == VotesAt(store, e, s)
    ensures r.outcome == Ok ==> VotesAt(r.state, q.eventId, q.sheetName) == Upsert(VotesAt(store, q.eventId, q.sheetName), q.voterName, NewVote(q, now))
  {
    if MissingParams(q) then Step(BadRequest, store)
    else if q.eventId !in events then Step(NotFound, store)
    else if events[q.eventId].status != Open then Step(Forbidden, store)
    else if !HasSheet(events[q.eventId].menu, q.sheetName) then Step(BadRequest, store)
    else if !Allowed(events[q.eventId].allowedVoters, q.voterName) then Step(Forbidden, store)
    else
      var before := VotesAt(store, q.eventId, q.sheetName);
      Step(Ok, Put(store, q.eventId, q.sheetName, Upsert(before, q.voterName, NewVote(q, now))))
  }

  /** A successful submission keeps "one vote per voter per sheet". */
  lemma UpsertKeepsVotersUnique(votes: seq<Vote>, name: string, v: Vote)
    requires IsVoter(v, name)
    requires UniqueVoters(votes)
    ensures UniqueVoters(Upsert(votes, name, v))
  {
    var r := Upsert(votes, name, v);
    var i := FindVoter(votes, name);
    forall a, b | 0 <= a < b < |r|
      ensures Lower(r[a].voterName) != Lower(r[b].voterName)
    {
      if i >= 0 {
        if a == i {
          assert Lower(votes[b].voterName) != Lower(votes[i].voterName);
        } else if b == i {
          assert Lower(votes[a].voterName) != Lower(votes[i].voterName);
        }
      } else if b == |votes| {
        assert !IsVoter(votes[a], name);
      }
    }
  }

  /**
   * After a submission, the sheet holds exactly one vote of that voter,
   * the one just submitted, under the trimmed spelling of the latest request.
   */
  lemma UpsertLeavesOneVote(votes: seq<Vote>, q: VoteRequest, now: string)
    requires UniqueVoters(votes)
    ensures var r := Upsert(votes, q.voterName, NewVote(q, now));
      && (forall k :: 0 <= k < |r| && IsVoter(r[k], q.voterName) ==> r[k] == NewVote(q, now))
      && NewVote(q, now) in r
      && NewVote(q, now).voterName == Trim(q.voterName)
  {
    var v := NewVote(q, now);
    var r := Upsert(votes, q.voterName, v);
    var i := FindVoter(votes, q.voterName);
    if i >= 0 {
      assert r == votes[i := v];
      forall k | i < k < |votes|
        ensures !IsVoter(votes[k], q.voterName)
      {
        VotersDiffer(votes, i, k);
      }
    } else {
      assert forall k :: 0 <= k < |votes| ==> r[k] == votes[k] && !IsVoter(votes[k], q.voterName);
      assert r[|votes|] == v;
    }
  }

  /** Two votes of a sheet without duplicate voters belong to different voters. */
  lemma VotersDiffer(votes: seq<Vote>, a: nat, b: nat)
    requires UniqueVoters(votes) && a < b < |votes|
    ensures Lower(votes[a].voterName) != Lower(votes[b].voterName)
  {
    assert VoterNames(votes)[a] == votes[a].voterName && VoterNames(votes)[b] == votes[b].voterName;
  }

  /**
   * Resubmission is an overwrite: a second vote by the same voter (in any
   * letter case) leaves the sheet exactly as if the first had never been cast.
   */
  lemma {:induction false} UpsertLastWriteWins(votes: seq<Vote>, n1: string, v1: Vote, n2: string, v2: Vote)
    requires VoterKey(n1) == VoterKey(n2)
    requires IsVoter(v1, n1) && IsVoter(v2, n2)
    ensures Upsert(Upsert(votes, n1, v1), n2, v2) == Upsert(votes, n2, v2)
  {
    var once := Upsert(votes, n1, v1);
    var i := FindVoter(votes, n1);
    FindVoterIs(votes, n2, i);
    if i >= 0 {
      FindVoterIs(once, n2, i);
    } else {
      FindVoterIs(once, n2, |votes|);
    }
  }

  /** The same, stated for two successful requests at the level of the whole store. */
  lemma ResubmissionOverwrites(events: Events, store: VoteStore, q1: VoteRequest, t1: string, q2: VoteRequest, t2: string)
    requires SubmitVote(events, store, q1, t1).outcome == Ok
    requires q2.eventId == q1.eventId && q2.sheetName == q1.sheetName
    requires VoterKey(q2.voterName) == VoterKey(q1.voterName)
    requires q2.voterName != "" && |q2.selections| > 0
    ensures SubmitVote(events, SubmitVote(events, store, q1, t1).state, q2, t2) == SubmitVote(events, store, q2, t2)
  {
    var e, s := q1.eventId, q1.sheetName;
    var u := events[e].allowedVoters;
    var w :| w in u && Lower(w) == VoterKey(q1.voterName);
    assert Allowed(u, q2.voterName);
    assert Admissible(events, q2);
    var before := VotesAt(store, e, s);
    var once := Upsert(before, q1.voterName, NewVote(q1, t1));
    var s1 := Put(store, e, s, once);
    assert SubmitVote(events, store, q1, t1).state == s1;
    UpsertLastWriteWins(before, q1.voterName, NewVote(q1, t1), q2.voterName, NewVote(q2, t2));
    PutTwice(store, e, s, once, Upsert(once, q2.voterName, NewVote(q2, t2)));
  }

  /** `find` succeeds exactly when some vote belongs to the voter. */
  lemma FoundIffVoter(votes: seq<Vote>, name: string)
    ensures FindVoter(votes, name) >= 0 <==> exists v :: v in votes && IsVoter(v, name)
  {
    if exists v :: v in votes && IsVoter(v, name) {
      var v :| v in votes && IsVoter(v, name);
      var k :| 0 <= k < |votes| && votes[k] == v;
    }
  }

  /**
   * `GET /api/votes/:eventId/:name` (server.js:387-404): for each sheet of
   * the event, the selections of the first vote whose voter matches `name`.
   */
  function VoterSelections(store: VoteStore, eventId: string, name: string): (r: map<string, seq<Selection>>)
    ensures forall s :: s in r <==> exists v :: v in VotesAt(store, eventId, s) && IsVoter(v, name)
    ensures forall s :: s in r ==> r[s] == VotesAt(store, eventId, s)[FindVoter(VotesAt(store, eventId, s), name)].selections
  {
    if eventId !in store then map[]
    else
      var sheets := store[eventId];
      assert forall s :: s in sheets ==> VotesAt(store, eventId, s) == sheets[s];
      var r := map s | s in sheets && FindVoter(sheets[s], name) >= 0 :: sheets[s][FindVoter(sheets[s], name)].selections;
      assert forall s :: s in r <==> exists v :: v in VotesAt(store, eventId, s) && IsVoter(v, name) by {
        forall s
          ensures s in r <==> exists v :: v in VotesAt(store, eventId, s) && IsVoter(v, name)
        {
          FoundIffVoter(VotesAt(store, eventId, s), name);
        }
      }
      r
  }

  /**
   * Round trip of the two routes: after a successful vote, looking the voter
   * up (in any letter case) returns exactly the selections just sent for that
   * sheet.
   */
  lemma SubmitThenLookup(events: Events, store: VoteStore, q: VoteRequest, now: string, name: string)
    requires SubmitVote(events, store, q, now).outcome == Ok
    requires VoterKey(name) == VoterKey(q.voterName)
    ensures var r := VoterSelections(SubmitVote(events, store, q, now).state, q.eventId, name);
      q.sheetName in r && r[q.sheetName] == q.selections
  {
    var after := VotesAt(SubmitVote(events, store, q, now).state, q.eventId, q.sheetName);
    var i := FindVoter(after, q.voterName);
    assert IsVoter(after[i], name);
    assert after[i] in after;
    assert FindVoter(after, name) == i by {
      assert forall k :: 0 <= k < |after| ==> (IsVoter(after[k], name) <==> IsVoter(after[k], q.voterName));
    }
  }
}
